=== FILE: README.md ===
# quizGame room/session core in Dafny

This project models the room and session state machine of the quizGame
server (`main.py`). The server keeps two process-wide registries:

- rooms, keyed by a five-character room code;
- users, keyed by a user id.

HTTP handlers read and change these registries:

- create a room;
- join a room;
- start the quiz;
- update a score;
- submit an answer;
- read the room status or the leaderboard.

Each handler is modelled as a pure function from the current `State` and
the request's fields to an `Outcome`. An outcome is the state afterwards
together with either a reply or an `Error`. Every error constructor but
one stands for an `HTTPException` a handler raises, or for the `KeyError`
of `submit_answer` reading a score entry that does not exist
(`ScoreMissing`, raised at main.py:383 or main.py:405). The exception is `CodeSupplyExhausted`: it stands for the code
allocation loop (main.py:114-115) never finishing when the finite choice
supply has no free code.

The modules:

- `Results` holds `Option`, `Result` and the error kinds.
- `RoomCodes` holds the code alphabet, `generate_room_code`, and the retry
  loop that allocates a free code. Randomness is an input: a stream of
  alphabet indices.
- `Scores` holds a room's `scores` dict, modelled as an association list
  in insertion order. It also holds the leaderboard sort
  `sorted(..., key=score, reverse=True)`, as an insertion sort `Rank`. The
  sort is characterised by `StableDescending`: a permutation, ordered by
  non-increasing score, in which entries with equal scores keep their
  table order. That characterisation is proved to determine `Rank`
  uniquely.
- `Answers` holds the case-insensitive answer comparison.
- `Quiz` holds the room, user and state records and the handlers.
- `History` holds requests, runs of requests, and the credits they earn.
  It also holds the invariants that handlers keep when every score and
  answer comes from a room member, the at-most-once credit theorem, and
  what happens when a non-member scores.

Inputs that replace non-deterministic sources:

- user ids are parameters (`adminId`, `newId`) instead of `uuid4()`;
- the questions of a new room are a parameter instead of the generator's
  output;
- the random choices for room codes are a finite stream.

A join keeps a room's players, score entries and answered sets in step
(main.py:241-247), which suggests that every name with a score entry or an
answered set in a room is one of its players. The code does not keep that
invariant in general, and the model follows the code:

- Handlers look users up in the global registry, not in the room
  (main.py:330, main.py:355). So `update_score` and `submit_answer` accept
  a user who is not a player of the room. They then give the room a score
  entry (main.py:338, main.py:393) and an answered set (main.py:374) for a
  name that is not among its players (`History.OutsiderScoreBreaksRoster`).
- A non-member credited for a correct answer can then join under the same
  name. The join replaces the name's answered set with an empty one
  (main.py:247), so the same answer is credited a second time
  (`History.OutsiderCreditedTwice`). So answers from non-members can
  break at-most-once credit. `update_score` never touches the answered
  sets (main.py:338-339), but the at-most-once theorem
  (`History.CreditAtMostOnce`) also assumes that score updates come from
  members. Its proof carries the invariant that score names are players,
  and a non-member's score update breaks that invariant.
- A wrong answer from a user with no score entry fails with a `KeyError`
  at main.py:405. That happens after the empty answered set was recorded
  at main.py:374, so this error path changes state (`ScoreMissing`).
- The "username already taken" error of `join_room` cannot happen while
  the invariants hold (`History.NoUsernameConflict`): every player name
  resolves to a user registered in that room.

## Model

| member | source | states |
|---|---|---|
| RoomCodes.AlphabetIsExact | main.py:103-104 | The alphabet is exactly the upper-case letters and digits without O, 0, I and 1: distinct choices give distinct characters and every such character is reachable |
| RoomCodes.GenerateRoundTrip | main.py:101-105 | A generated code takes one alphabet character per choice; generation and decoding into choices are mutually inverse, so every code over the alphabet is generated by exactly one choice sequence |
| RoomCodes.FirstFreeCode | main.py:111-115 | The code the allocation loop settles on, when the choice supply lasts, has length 5, uses only the alphabet, and is not a key of the room registry |
| RoomCodes.AllocateCode | main.py:111-115 | The retry loop returns a valid code that no room holds, and it is the same code as the recursive definition of the allocation |
| RoomCodes.FirstFreeCodeIsFirst | main.py:111-115 | Allocation fails exactly when every candidate in the supply is taken; otherwise it returns the first candidate that is free, and every earlier candidate was taken |
| Quiz.CreateRoom | main.py:108-156 | Running out of codes, then a duplicate room name, are the errors, and both leave the state unchanged; a free code and an unused name always succeed. Then a new free code maps to a room with the admin ("Admin-" plus the code's first three characters) as sole player, score 0, an empty answered set, not started and question 0; the admin user is registered with is_admin set and score 0, at the end of the registration order when its id is new |
| Quiz.FindUserIndex | main.py:189-193 | The rejoin scan stops at a user whose name and current room match, no earlier user in registration order matches, and it reports none only when no registered user matches |
| Quiz.JoinRoom | main.py:172-247 | An unknown room, then a full room (checked before the name), then a name already present: a rejoin returns the first matching user with no state change, or a conflict when none matches. Otherwise the name is appended to the players, its score entry is set to 0 as a dict assignment does (a new name goes at the end of the table, which decides leaderboard ties), it gets an empty answered set, the player count grows by one, the new user is registered at the end of the registration order, and nothing else changes. A new name in a room with space always joins, and its reply carries the new player list, the question views without answers, and the room's started flag and progress. Every error leaves the state unchanged, and the reply's leaderboard is the stable descending order of the scores |
| Quiz.StartQuiz | main.py:284-301 | Unknown room, then a caller other than the admin, are the errors, with no change; the admin's start always succeeds, and only the room's started flag changes, to true |
| Quiz.UpdateScore | main.py:327-346 | Unknown room, then unknown user (looked up globally), with no change; a known room and user always succeed: the user's table entry (absent counts as 0) and the user's own score both grow by the signed, unbounded delta, and the reply carries the new entry and the ranked table |
| Quiz.SubmitAnswer | main.py:352-388 | An unknown room, then an unknown user, then a room not started, then a question id the room lacks are the errors, whatever the answer, and each leaves the state unchanged; past it, an already-credited question, a case-insensitively correct first answer and a wrong answer each lead to their own outcome |
| Quiz.AnswerRepeated | main.py:376-385 | A question already credited to the name changes nothing and reports the name's current score and the ranked table, or fails with a KeyError when the name has no score entry |
| Quiz.RecordRight | main.py:391-397 | A first correct answer adds exactly one to the name's table entry and to the user's score, records the question in the name's answered set, and changes no other entry, room or user; an existing entry keeps its place in the table and an absent one is appended at the end |
| Quiz.AnswerRight | main.py:388-407 | A first correct answer replies correct, with one point earned and the new score, and the ranked table of the new scores |
| Quiz.AnswerWrong | main.py:370-407 | A wrong answer changes no score or user; only the name's answered set is created if it was missing. The reply reports no points and the unchanged score, or a KeyError when the name has no score entry, and that error keeps the new answered set |
| Quiz.RoomStatus | main.py:304-322 | Unknown room fails and a known room always succeeds; the reply mirrors the room's name, topic, current question, players, scores, started and admin fields, waiting-for-admin is the negation of started, and the leaderboard is the stable descending order of the scores |
| Quiz.RoomLeaderboard | main.py:409-420 | Unknown room fails and a known room always succeeds; the reply carries the room name and the stable descending order of its scores |
| Scores.Put | main.py:338 | Assigning a name's score sets that name's value, leaves every other name's value and the table order alone, appends an absent name at the end, and keeps names distinct |
| Scores.Insert | main.py:419 | Inserting an entry into a non-increasing list gives a non-increasing permutation of the list plus the entry |
| Scores.RankIsStableDescending | main.py:419 | The leaderboard is a permutation of the score table, ordered by non-increasing score, in which entries with equal scores keep their table order |
| Scores.StableDescendingIsRank | main.py:419 | Any order that is a stable descending permutation of the table equals the leaderboard, so the sort is determined by its specification |
| Scores.RankKeepsNames | main.py:419 | The leaderboard lists exactly the table's names, each once |
| Answers.MatchesIffSameIgnoringCase | main.py:388 | An answer matches exactly when it has the correct answer's length and agrees with it position by position up to letter case |
| Answers.LowerIsIdempotent | main.py:388 | Lower-casing twice is lower-casing once, so an answer matches its own lower-cased form |
| History.CreateKeepsGood | main.py:129-156 | Creating a room with a fresh admin id keeps the invariants: listed users, rooms keyed by their code, unique room names, score and answered names among the players, every player resolving to exactly one user of that room, and the admin placed in its room |
| History.JoinKeepsGood | main.py:229-247 | Joining with a fresh id keeps the invariants |
| History.StepKeepsGood | main.py:117-407 | Any request that is admissible (fresh ids, scores and answers only from members) keeps the invariants, never loses a recorded credit, and any credit it earns was not recorded before and is after |
| History.RunKeepsGood | main.py:117-407 | The invariants hold after any admissible run of requests from a state where they hold |
| History.CreditAtMostOnce | main.py:376-397 | Over any admissible run, the credits earned are pairwise distinct, none was recorded before the run, and all are recorded after it: each (room, name, question) is credited at most once |
| History.SubmitCredit | main.py:388-404 | A submission earns a credit exactly when its reply reports one point earned; every checked reply earns 0 or 1 point |
| History.SecondCorrectAnswerEarnsNothing | main.py:376-397 | Repeating a credited answer leaves the state unchanged and reports already answered, with the score the first answer gave |
| History.NoUsernameConflict | main.py:186-227 | Under the invariants joining never fails with a username conflict |
| History.RejoinAsAdmin | main.py:186-215 | Joining a room with spare capacity under the admin's display name returns the admin's id and admin flag and changes nothing |
| History.JoinWithNewName | main.py:183-247 | A name not yet among the players of a room with spare capacity always joins under the new id, and the player count grows by one |
| History.StartIdempotent | main.py:284-294 | The admin's start succeeds, and starting again succeeds and changes nothing |
| History.OutsiderScoreBreaksRoster | main.py:330-339 | A score update for a user who is not a player gives the room a score entry for a name outside its players |
| History.OutsiderCreditedTwice | main.py:241-397 | A non-member's correct answer, a join under the same name, and the same answer again earn the same credit twice |

## Left out

- HTTP, FastAPI routing, CORS, Pydantic validation and numeric status
  codes: errors are the constructors of `Error`, and reply messages are
  omitted.
- `generate_questions` (main.py:422-518), an external HTTP call with JSON
  parsing and fallback lists: the question list is a parameter of
  `CreateRoom`. The `rounds` field only feeds that generator.
- Persistence (`save_data`, the start-up load and `SetEncoder`,
  main.py:31-74): file I/O, and the set/list conversion only serves it.
- `uuid.uuid4()` and `time.time()`: ids are parameters and timestamps are
  omitted. The trace lemmas assume fresh ids. The handlers themselves
  overwrite an existing id, as the dict assignment would.
- Empty user ids: the rejoin test at main.py:195 treats an empty id as
  "not found". Ids come from `uuid4()` and are never empty, so `JoinRoom`
  treats any id it finds as a rejoin.
- `max_players = None`: Pydantic admits it, and Python 3 then raises a
  `TypeError` at the comparison. The model takes `maxPlayers` as an
  integer.
- Malformed questions: the question list is assumed well-formed, every
  question carrying a string id, text, options and correct answer.
  Questions come from the generator, which fills in only a missing id
  (main.py:480) and passes the rest of the parsed JSON through. In the
  source, a question without `correct_answer` makes `submit_answer` raise
  a `KeyError` at main.py:388, after main.py:374 may already have created
  the answered set. A non-string id never matches at main.py:366. The
  model has neither case.
- Defensive lookups that cannot fail on records this core creates: the
  `"answered_correctly" not in room` guards, `room.get(...)` with defaults,
  and the `isinstance` check on questions.
- Answers.Matches: it lower-cases ASCII letters only. Python's
  `str.lower()` also folds non-ASCII letters.
- RoomCodes.AlphabetChar: it fixes one order of the alphabet. The source
  takes the order of a Python set, which is arbitrary. Only the set of
  characters is specified.
- RoomCodes.FirstFreeCode: the source's retry loop is unbounded. With a
  finite choice supply, running out is reported as `CodeSupplyExhausted`,
  which stands for the loop not finishing.
- Debug `print`s.
- `current_question` is modelled and returned but never advanced; no
  handler of this core advances it either.
- Request defaults: Pydantic fills in `max_players = 10` (main.py:79) and
  `points = 1` (main.py:94) when a request omits them. The model takes
  `maxPlayers` and `points` as required parameters.
- Concurrency: requests are modelled as a sequence. Only `create_room`
  awaits between its checks and its writes. It reads `rooms` for the code
  and the name (main.py:114-117), awaits question generation
  (main.py:121), and only then writes `users` and `rooms`
  (main.py:132, main.py:142). Two concurrent creates could therefore pick
  the same free code or the same name; that interleaving is not modelled.
  The other handlers do not await.

=== FILE: answers.dfy ===
/** Case-insensitive answer checking: an answer is correct when it equals
    the correct option after both are lower-cased. Lower-casing is ASCII:
    'A'..'Z' map to 'a'..'z' and every other character is kept. */
module Answers {

  function LowerChar(c: char): char
  {
    if 'A' <= c <= 'Z' then (c as int + 32) as char else c
  }

  function Lower(s: string): (r: string)
    ensures |r| == |s|
  {
    seq(|s|, k requires 0 <= k < |s| => LowerChar(s[k]))
  }

  /** `answer.lower() == correct.lower()`. */
  predicate Matches(answer: string, correct: string)
  {
    Lower(answer) == Lower(correct)
  }

  /** Two characters that are equal or differ only in ASCII letter case. */
  predicate SameIgnoringCase(a: char, b: char)
  {
    || a == b
    || ('A' <= a <= 'Z' && b as int == a as int + 32)
    || ('A' <= b <= 'Z' && a as int == b as int + 32)
  }

  /** An answer matches exactly when it has the correct answer's length
      and agrees with it position by position up to letter case. */
  lemma MatchesIffSameIgnoringCase(answer: string, correct: string)
    ensures Matches(answer, correct) <==>
              |answer| == |correct| &&
              forall k :: 0 <= k < |answer| ==> SameIgnoringCase(answer[k], correct[k])
  {
    if |answer| == |correct| {
      if forall k :: 0 <= k < |answer| ==> SameIgnoringCase(answer[k], correct[k]) {
        forall k | 0 <= k < |answer| ensures Lower(answer)[k] == Lower(correct)[k] {
          assert SameIgnoringCase(answer[k], correct[k]);
        }
      }
      if Matches(answer, correct) {
        forall k | 0 <= k < |answer| ensures SameIgnoringCase(answer[k], correct[k]) {
          assert Lower(answer)[k] == Lower(correct)[k];
        }
      }
    }
  }

  /** Lower-casing twice is lower-casing once, so an answer matches its
      own lower-cased form. */
  lemma LowerIsIdempotent(a: string)
    ensures Lower(Lower(a)) == Lower(a)
    ensures Matches(Lower(a), a)
  {
    forall k | 0 <= k < |a| ensures Lower(Lower(a))[k] == Lower(a)[k] {
      assert LowerChar(LowerChar(a[k])) == LowerChar(a[k]);
    }
  }
}

=== FILE: codes.dfy ===
/** Room codes: short, human-typeable identifiers built from random
    choices over an alphabet of upper-case letters and digits without the
    look-alikes O, 0, I and 1, and the retry loop that allocates a code no
    live room uses.

    Randomness is an input: a stream of choices, each an index into the
    alphabet, consumed one per generated character. */
module RoomCodes {
  import opened Results

  /** Length of every code the service generates. */
  const CodeLength: nat := 5

  /** Number of characters in the code alphabet: 26 letters and 10 digits
      less the four look-alikes. */
  const AlphabetSize: nat := 32

  /** One random choice: an index into the alphabet. */
  type Choice = i: int | 0 <= i < AlphabetSize

  /** A character the alphabet admits: an upper-case ASCII letter or a
      decimal digit other than O, 0, I and 1. */
  predicate Unambiguous(c: char)
  {
    && ('A' <= c <= 'Z' || '0' <= c <= '9')
    && c != 'O' && c != '0' && c != 'I' && c != '1'
  }

  /** The alphabet, in the order A-H, J-N, P-Z, 2-9. The source builds it
      from a Python set, whose order is arbitrary; only its contents
      matter for a uniformly random choice. */
  function AlphabetChar(i: Choice): (c: char)
    ensures Unambiguous(c)
  {
    if i < 8 then ('A' as int + i) as char         // A..H
    else if i < 13 then ('A' as int + i + 1) as char // J..N
    else if i < 24 then ('A' as int + i + 2) as char // P..Z
    else ('2' as int + i - 24) as char               // 2..9
  }

  /** The choice that yields `c`: the inverse of `AlphabetChar`. */
  function ChoiceOf(c: char): (i: Choice)
    requires Unambiguous(c)
    ensures AlphabetChar(i) == c
  {
    if 'A' <= c <= 'H' then c as int - 'A' as int
    else if 'J' <= c <= 'N' then c as int - 'A' as int - 1
    else if 'P' <= c <= 'Z' then c as int - 'A' as int - 2
    else c as int - '2' as int + 24
  }

  /** Different choices give different characters, and every unambiguous
      character is some choice: the alphabet has exactly 32 members. */
  lemma AlphabetIsExact()
    ensures forall i: Choice, j: Choice :: AlphabetChar(i) == AlphabetChar(j) ==> i == j
    ensures forall c :: Unambiguous(c) <==> exists i: Choice :: AlphabetChar(i) == c
  {
    forall i: Choice, j: Choice | AlphabetChar(i) == AlphabetChar(j) ensures i == j {
      assert ChoiceOf(AlphabetChar(i)) == i;
      assert ChoiceOf(AlphabetChar(j)) == j;
    }
    forall c | Unambiguous(c) ensures exists i: Choice :: AlphabetChar(i) == c {
      assert AlphabetChar(ChoiceOf(c)) == c;
    }
  }

  /** A well-formed room code. */
  predicate ValidCode(code: string)
  {
    |code| == CodeLength && forall k :: 0 <= k < |code| ==> Unambiguous(code[k])
  }

  /** `generate_room_code(length)`: one alphabet character per choice,
      taken from the front of the stream. */
  function GenerateRoomCode(length: nat, choices: seq<Choice>): (code: string)
    requires length <= |choices|
    ensures |code| == length
    ensures forall k :: 0 <= k < length ==> Unambiguous(code[k])
  {
    seq(length, k requires 0 <= k < length => AlphabetChar(choices[k]))
  }

  /** The choices that generate `code`. */
  function ChoicesOf(code: string): (choices: seq<Choice>)
    requires forall k :: 0 <= k < |code| ==> Unambiguous(code[k])
    ensures |choices| == |code|
  {
    seq(|code|, k requires 0 <= k < |code| => ChoiceOf(code[k]))
  }

  /** Generation and `ChoicesOf` are inverse: every code over the alphabet
      can be generated, and by exactly one sequence of choices. */
  lemma GenerateRoundTrip(length: nat, choices: seq<Choice>, code: string)
    requires length <= |choices|
    requires forall k :: 0 <= k < |code| ==> Unambiguous(code[k])
    ensures GenerateRoomCode(|code|, ChoicesOf(code)) == code
    ensures ChoicesOf(GenerateRoomCode(length, choices)) == choices[..length]
  {
    var g := GenerateRoomCode(length, choices);
    forall k | 0 <= k < length ensures ChoicesOf(g)[k] == choices[k] {
      assert ChoiceOf(AlphabetChar(choices[k])) == choices[k];
    }
  }

  /** The code tried after `attempt` earlier codes were found taken. */
  function Candidate(stream: seq<Choice>, attempt: nat): (code: string)
    requires CodeLength * (attempt + 1) <= |stream|
    ensures ValidCode(code)
  {
    GenerateRoomCode(CodeLength, stream[CodeLength * attempt..])
  }

  /** The room code the allocation loop settles on: candidates are drawn
      from the stream until one is not in `taken`. `None` when the stream
      runs out first; the source's loop has no bound and would keep
      drawing. */
  function FirstFreeCode(taken: set<string>, stream: seq<Choice>): (r: Option<string>)
    ensures r.Some? ==> ValidCode(r.value) && r.value !in taken
    decreases |stream|
  {
    if |stream| < CodeLength then None
    else
      var code := GenerateRoomCode(CodeLength, stream);
      if code !in taken then Some(code) else FirstFreeCode(taken, stream[CodeLength..])
  }

  /** The allocation loop: generate a code, and while it names a live
      room, generate another. */
  method AllocateCode(taken: set<string>, stream: seq<Choice>) returns (r: Option<string>)
    ensures r.Some? ==> ValidCode(r.value) && r.value !in taken
    ensures r == FirstFreeCode(taken, stream)
  {
    var rest := stream;
    while |rest| >= CodeLength && GenerateRoomCode(CodeLength, rest) in taken
      invariant FirstFreeCode(taken, rest) == FirstFreeCode(taken, stream)
      decreases |rest|
    {
      rest := rest[CodeLength..];
    }
    if |rest| < CodeLength {
      r := None;
    } else {
      r := Some(GenerateRoomCode(CodeLength, rest));
    }
  }

  /** The allocated code is the first candidate that is free, and the
      allocation fails only when every candidate the stream holds is
      taken. */
  lemma {:induction false} FirstFreeCodeIsFirst(taken: set<string>, stream: seq<Choice>)
    ensures FirstFreeCode(taken, stream).None? <==>
              forall a: nat :: CodeLength * (a + 1) <= |stream| ==> Candidate(stream, a) in taken
    ensures FirstFreeCode(taken, stream).Some? ==>
              exists a: nat :: CodeLength * (a + 1) <= |stream|
                && FirstFreeCode(taken, stream).value == Candidate(stream, a)
                && forall b: nat :: b < a ==> Candidate(stream, b) in taken
    decreases |stream|
  {
    if |stream| >= CodeLength {
      var rest := stream[CodeLength..];
      FirstFreeCodeIsFirst(taken, rest);
      assert Candidate(stream, 0) == GenerateRoomCode(CodeLength, stream);
      forall a: nat | CodeLength * (a + 1) <= |rest|
        ensures Candidate(rest, a) == Candidate(stream, a + 1)
      {
        assert rest[CodeLength * a..] == stream[CodeLength * (a + 1)..];
      }
      if GenerateRoomCode(CodeLength, stream) in taken {
        forall a: nat | CodeLength * (a + 1) <= |stream| && a > 0
          ensures Candidate(stream, a) == Candidate(rest, a - 1)
        {
          assert rest[CodeLength * (a - 1)..] == stream[CodeLength * a..];
        }
        if FirstFreeCode(taken, rest).Some? {
          var a: nat :| CodeLength * (a + 1) <= |rest|
            && FirstFreeCode(taken, rest).value == Candidate(rest, a)
            && forall b: nat :: b < a ==> Candidate(rest, b) in taken;
          forall b: nat | b < a + 1 ensures Candidate(stream, b) in taken {
            if b > 0 { assert Candidate(stream, b) == Candidate(rest, b - 1); }
          }
        }
      } else {
        assert FirstFreeCode(taken, stream).value == Candidate(stream, 0);
      }
    }
  }
}

=== FILE: history.dfy ===
/** Properties of the service over sequences of requests: the state
    invariants the handlers keep, and at-most-once credit for a question.

    The handlers look users up globally, not per room, so a user may add
    points or submit answers in a room they never joined. The invariants
    below hold as long as every score update and answer comes from a user
    whose name is a player of that room, and the lemmas at the end show
    what goes wrong otherwise. */
module History {
  import opened Results
  import opened Scores
  import opened RoomCodes
  import opened Answers
  import opened Quiz

  // ---------------------------------------------------------------------
  // State invariants
  // ---------------------------------------------------------------------

  /** Every registered user is in the registration order under its own id. */
  ghost predicate UsersListed(s: State)
  {
    forall u :: u in s.users ==> u in s.userOrder && s.users[u].id == u
  }

  ghost predicate RoomsKeyed(s: State)
  {
    forall c :: c in s.rooms ==> s.rooms[c].id == c
  }

  /** No two rooms share a display name. */
  ghost predicate NamesUnique(s: State)
  {
    forall c1, c2 :: c1 in s.rooms && c2 in s.rooms && s.rooms[c1].name == s.rooms[c2].name ==> c1 == c2
  }

  /** The score table and the answered sets cover exactly the players. */
  ghost predicate Roster(room: Room)
  {
    && DistinctNames(room.scores)
    && (forall n :: n in Names(room.scores) <==> n in room.players)
    && (forall n :: n in room.answered <==> n in room.players)
  }

  ghost predicate RostersHold(s: State)
  {
    forall c :: c in s.rooms ==> Roster(s.rooms[c])
  }

  /** Every user's name is a player of the room it is in. */
  ghost predicate UsersPlaced(s: State)
  {
    forall u :: u in s.users ==>
      s.users[u].currentRoom in s.rooms && s.users[u].username in s.rooms[s.users[u].currentRoom].players
  }

  /** Every player of a room is some user in that room. */
  ghost predicate PlayersResolve(s: State)
  {
    forall c, n :: c in s.rooms && n in s.rooms[c].players ==> exists u :: Resolves(s.users, u, n, c)
  }

  /** No two users share a name within a room. */
  ghost predicate ResolversUnique(s: State)
  {
    forall u1, u2 :: u1 in s.users && u2 in s.users
         && s.users[u1].username == s.users[u2].username
         && s.users[u1].currentRoom == s.users[u2].currentRoom
      ==> u1 == u2
  }

  /** Each room's admin id names an admin user of that room, called by
      the room's admin name. */
  ghost predicate AdminsPlaced(s: State)
  {
    forall c :: c in s.rooms ==>
      var a := s.rooms[c].adminId;
      a in s.users && s.users[a].isAdmin && s.users[a].currentRoom == c && s.users[a].username == AdminName(c)
  }

  ghost predicate Good(s: State)
  {
    && UsersListed(s) && RoomsKeyed(s) && NamesUnique(s) && RostersHold(s)
    && UsersPlaced(s) && PlayersResolve(s) && ResolversUnique(s) && AdminsPlaced(s)
  }

  lemma EmptyIsGood()
    ensures Good(State(map[], map[], []))
  {
  }

  // ---------------------------------------------------------------------
  // Requests and runs
  // ---------------------------------------------------------------------

  datatype Request =
    | Create(stream: seq<Choice>, name: string, topic: string, maxPlayers: int, questions: seq<Question>, adminId: UserId)
    | Join(code: string, username: string, newId: UserId)
    | Start(code: string, adminId: UserId)
    | AddScore(code: string, uid: UserId, points: int)
    | Submit(code: string, uid: UserId, qid: QuestionId, answer: string)

  /** A room code, a display name and a question: the unit of credit. */
  type CreditEvent = (string, string, QuestionId)

  /** The user acts in a room whose player list holds its name (vacuous
      when room or user is unknown, as the request then fails). */
  ghost predicate ByMember(s: State, code: string, uid: UserId)
  {
    code in s.rooms && uid in s.users ==> s.users[uid].username in s.rooms[code].players
  }

  /** What the environment guarantees (fresh ids) and what the invariants
      need (scores and answers only from members). */
  ghost predicate Admissible(s: State, req: Request)
  {
    match req
    case Create(_, _, _, _, _, adminId) => adminId !in s.users
    case Join(_, _, newId) => newId !in s.users
    case Start(_, _) => true
    case AddScore(code, uid, _) => ByMember(s, code, uid)
    case Submit(code, uid, _, _) => ByMember(s, code, uid)
  }

  /** One request: the state after it, and the credit it earned if any. */
  function Step(s: State, req: Request): (State, Option<CreditEvent>)
  {
    (Next(s, req), CreditFor(s, req))
  }

  /** The state after one request. */
  function Next(s: State, req: Request): State
  {
    match req
    case Create(stream, name, topic, maxPlayers, questions, adminId) =>
      CreateRoom(s, stream, name, topic, maxPlayers, questions, adminId).state
    case Join(code, username, newId) => JoinRoom(s, code, username, newId).state
    case Start(code, adminId) => StartQuiz(s, code, adminId).state
    case AddScore(code, uid, points) => UpdateScore(s, code, uid, points).state
    case Submit(code, uid, qid, answer) => SubmitAnswer(s, code, uid, qid, answer).state
  }

  /** The credit one request earns: only submissions earn any. */
  function CreditFor(s: State, req: Request): Option<CreditEvent>
  {
    match req
    case Submit(code, uid, qid, answer) => CreditOf(s, code, uid, qid, answer)
    case _ => None
  }

  /** The credit a submission earns: the question under the submitter's
      name, for a first correct answer past the gate. */
  function CreditOf(s: State, code: string, uid: UserId, qid: QuestionId, answer: string): Option<CreditEvent>
  {
    if && AnswerGate(s, code, uid, qid).None?
       && !AlreadyCredited(s.rooms[code], s.users[uid].username, qid)
       && Matches(answer, FindQuestion(s.rooms[code].questions, qid).value.correctAnswer)
    then Some((code, s.users[uid].username, qid))
    else None
  }

  /** Requests in order: the final state and the credits earned. */
  function Run(s: State, reqs: seq<Request>): (State, seq<CreditEvent>)
    decreases |reqs|
  {
    if |reqs| == 0 then (s, [])
    else
      var step := Step(s, reqs[0]);
      var rest := Run(step.0, reqs[1..]);
      (rest.0, Earned(step.1) + rest.1)
  }

  function Earned(credit: Option<CreditEvent>): seq<CreditEvent>
  {
    if credit.Some? then [credit.value] else []
  }

  ghost predicate AdmissibleRun(s: State, reqs: seq<Request>)
    decreases |reqs|
  {
    |reqs| == 0 || (Admissible(s, reqs[0]) && AdmissibleRun(Step(s, reqs[0]).0, reqs[1..]))
  }

  /** The question is recorded as credited to the name in the room. */
  ghost predicate CreditedIn(s: State, e: CreditEvent)
  {
    e.0 in s.rooms && e.1 in s.rooms[e.0].answered && e.2 in s.rooms[e.0].answered[e.1]
  }

  /** Credits once recorded stay recorded. */
  ghost predicate KeepsCredits(s: State, s': State)
  {
    forall e :: CreditedIn(s, e) ==> CreditedIn(s', e)
  }

  // ---------------------------------------------------------------------
  // Each handler keeps the invariants
  // ---------------------------------------------------------------------

  /** `s'` differs from `s` at most in scores, answered sets and started
      flags: the same rooms with the same names, players and admins, and the
      same users with the same names, rooms and admin flags. */
  ghost predicate SameShape(s: State, s': State)
  {
    SameRooms(s, s') && SameUsers(s, s')
  }

  ghost predicate SameRooms(s: State, s': State)
  {
    && s'.rooms.Keys == s.rooms.Keys
    && (forall c :: c in s.rooms ==>
          && s'.rooms[c].id == s.rooms[c].id && s'.rooms[c].name == s.rooms[c].name
          && s'.rooms[c].players == s.rooms[c].players && s'.rooms[c].adminId == s.rooms[c].adminId)
  }

  ghost predicate SameUsers(s: State, s': State)
  {
    && s'.users.Keys == s.users.Keys && s'.userOrder == s.userOrder
    && (forall u :: u in s.users ==>
          && s'.users[u].id == s.users[u].id && s'.users[u].username == s.users[u].username
          && s'.users[u].currentRoom == s.users[u].currentRoom && s'.users[u].isAdmin == s.users[u].isAdmin)
  }

  /** Replacing one room by a room with the same identity, players and
      admin keeps the shape; a replacement that keeps its roster keeps
      every roster. */
  lemma ReplaceRoom(s: State, code: string, room': Room)
    requires code in s.rooms && RostersHold(s) && Roster(room')
    requires room'.id == s.rooms[code].id && room'.name == s.rooms[code].name
    requires room'.players == s.rooms[code].players && room'.adminId == s.rooms[code].adminId
    ensures SameRooms(s, s.(rooms := s.rooms[code := room']))
    ensures RostersHold(s.(rooms := s.rooms[code := room']))
  {
  }

  lemma ShapeKeepsGood(s: State, s': State)
    requires Good(s) && SameShape(s, s') && RostersHold(s')
    ensures Good(s')
  {
    ShapeKeepsNames(s, s');
    ShapeKeepsUsers(s, s');
    ShapeKeepsResolution(s, s');
  }

  lemma ShapeKeepsNames(s: State, s': State)
    requires UsersListed(s) && RoomsKeyed(s) && NamesUnique(s) && SameShape(s, s')
    ensures UsersListed(s') && RoomsKeyed(s') && NamesUnique(s')
  {
  }

  lemma ShapeKeepsUsers(s: State, s': State)
    requires Good(s) && SameShape(s, s')
    ensures UsersPlaced(s') && ResolversUnique(s') && AdminsPlaced(s')
  {
    ShapePlacesUsers(s, s');
    ShapeKeepsResolversUnique(s, s');
    ShapePlacesAdmins(s, s');
  }

  lemma ShapePlacesUsers(s: State, s': State)
    requires UsersPlaced(s) && SameShape(s, s')
    ensures UsersPlaced(s')
  {
  }

  lemma ShapeKeepsResolversUnique(s: State, s': State)
    requires ResolversUnique(s) && SameShape(s, s')
    ensures ResolversUnique(s')
  {
  }

  lemma ShapePlacesAdmins(s: State, s': State)
    requires AdminsPlaced(s) && SameShape(s, s')
    ensures AdminsPlaced(s')
  {
  }

  lemma ShapeKeepsResolution(s: State, s': State)
    requires PlayersResolve(s) && SameShape(s, s')
    ensures PlayersResolve(s')
  {
    forall c, n | c in s'.rooms && n in s'.rooms[c].players ensures exists u :: Resolves(s'.users, u, n, c) {
      var u :| Resolves(s.users, u, n, c);
      assert Resolves(s'.users, u, n, c);
    }
  }

  /** A new room whose only player is its admin, with a fresh admin user. */
  ghost predicate NewRoom(s: State, code: string, room: Room, admin: User)
  {
    && code !in s.rooms && admin.id !in s.users
    && !NameInUse(s, room.name)
    && room.id == code && room.players == [admin.username] && room.adminId == admin.id
    && room.scores == [(admin.username, 0)] && room.answered == map[admin.username := {}]
    && admin.currentRoom == code && admin.isAdmin && admin.username == AdminName(code)
  }

  function WithRoom(s: State, code: string, room: Room, user: User): State
  {
    State(s.rooms[code := room], s.users[user.id := user], s.userOrder + [user.id])
  }

  lemma AddRoomKeepsGood(s: State, code: string, room: Room, admin: User)
    requires Good(s) && NewRoom(s, code, room, admin)
    ensures Good(WithRoom(s, code, room, admin)) && KeepsCredits(s, WithRoom(s, code, room, admin))
  {
    AddRoomKeepsRosters(s, code, room, admin);
    AddRoomKeepsNames(s, code, room, admin);
    AddRoomKeepsUsers(s, code, room, admin);
    AddRoomKeepsResolution(s, code, room, admin);
  }

  lemma AddRoomKeepsRosters(s: State, code: string, room: Room, admin: User)
    requires RostersHold(s) && NewRoom(s, code, room, admin)
    ensures RostersHold(WithRoom(s, code, room, admin)) && KeepsCredits(s, WithRoom(s, code, room, admin))
  {
    assert Names(room.scores) == [admin.username];
    assert Roster(room);
  }

  lemma AddRoomKeepsNames(s: State, code: string, room: Room, admin: User)
    requires UsersListed(s) && RoomsKeyed(s) && NamesUnique(s) && NewRoom(s, code, room, admin)
    ensures var s' := WithRoom(s, code, room, admin);
            UsersListed(s') && RoomsKeyed(s') && NamesUnique(s')
  {
  }

  lemma AddRoomKeepsUsers(s: State, code: string, room: Room, admin: User)
    requires Good(s) && NewRoom(s, code, room, admin)
    ensures var s' := WithRoom(s, code, room, admin);
            UsersPlaced(s') && ResolversUnique(s') && AdminsPlaced(s')
  {
    AddRoomPlacesUsers(s, code, room, admin);
    AddRoomKeepsResolversUnique(s, code, room, admin);
    AddRoomPlacesAdmins(s, code, room, admin);
  }

  lemma AddRoomPlacesUsers(s: State, code: string, room: Room, admin: User)
    requires UsersPlaced(s) && NewRoom(s, code, room, admin)
    ensures UsersPlaced(WithRoom(s, code, room, admin))
  {
  }

  lemma AddRoomKeepsResolversUnique(s: State, code: string, room: Room, admin: User)
    requires UsersPlaced(s) && ResolversUnique(s) && NewRoom(s, code, room, admin)
    ensures ResolversUnique(WithRoom(s, code, room, admin))
  {
    forall u | u in s.users ensures s.users[u].currentRoom != code { }
  }

  lemma AddRoomPlacesAdmins(s: State, code: string, room: Room, admin: User)
    requires AdminsPlaced(s) && NewRoom(s, code, room, admin)
    ensures AdminsPlaced(WithRoom(s, code, room, admin))
  {
  }

  lemma AddRoomKeepsResolution(s: State, code: string, room: Room, admin: User)
    requires PlayersResolve(s) && NewRoom(s, code, room, admin)
    ensures PlayersResolve(WithRoom(s, code, room, admin))
  {
    var s' := WithRoom(s, code, room, admin);
    forall c, n | c in s'.rooms && n in s'.rooms[c].players ensures exists u :: Resolves(s'.users, u, n, c) {
      if c == code {
        assert Resolves(s'.users, admin.id, n, c);
      } else {
        var u :| Resolves(s.users, u, n, c);
        assert Resolves(s'.users, u, n, c);
      }
    }
  }

  lemma CreateKeepsGood(s: State, stream: seq<Choice>, name: string, topic: string, maxPlayers: int,
                        questions: seq<Question>, adminId: UserId)
    requires Good(s) && adminId !in s.users
    ensures var s' := CreateRoom(s, stream, name, topic, maxPlayers, questions, adminId).state;
            Good(s') && KeepsCredits(s, s')
  {
    var o := CreateRoom(s, stream, name, topic, maxPlayers, questions, adminId);
    if o.result.Ok? {
      var code := o.result.value.roomId;
      var admin := AdminName(code);
      var user := User(adminId, admin, code, 0, true);
      var room := o.state.rooms[code];
      assert o.state == WithRoom(s, code, room, user);
      AddRoomKeepsGood(s, code, room, user);
    }
  }

  /** A name not yet among the room's players, with a fresh user for it. */
  ghost predicate NewPlayer(s: State, code: string, user: User)
  {
    && code in s.rooms && user.id !in s.users
    && user.username !in s.rooms[code].players
    && user.currentRoom == code && !user.isAdmin
  }

  /** The room after `join_room` appends a new player. */
  function WithPlayer(room: Room, username: string): Room
  {
    room.(players := room.players + [username],
          scores := Put(room.scores, username, 0),
          answered := room.answered[username := {}])
  }

  lemma AddPlayerKeepsGood(s: State, code: string, user: User)
    requires Good(s) && NewPlayer(s, code, user)
    ensures var s' := WithRoom(s, code, WithPlayer(s.rooms[code], user.username), user);
            Good(s') && KeepsCredits(s, s')
  {
    AddPlayerKeepsRosters(s, code, user);
    AddPlayerKeepsNames(s, code, user);
    AddPlayerKeepsUsers(s, code, user);
    AddPlayerKeepsResolution(s, code, user);
  }

  lemma AddPlayerKeepsRosters(s: State, code: string, user: User)
    requires RostersHold(s) && NewPlayer(s, code, user)
    ensures var s' := WithRoom(s, code, WithPlayer(s.rooms[code], user.username), user);
            RostersHold(s') && KeepsCredits(s, s')
  {
    var room := s.rooms[code];
    AddPlayerKeepsRoster(room, user.username);
    AddPlayerKeepsCredits(s, code, user);
  }

  lemma AddPlayerKeepsRoster(room: Room, username: string)
    requires Roster(room) && username !in room.players
    ensures Roster(WithPlayer(room, username))
  {
    assert username !in Names(room.scores);
    assert Names(WithPlayer(room, username).scores) == Names(room.scores) + [username];
  }

  lemma AddPlayerKeepsCredits(s: State, code: string, user: User)
    requires NewPlayer(s, code, user) && Roster(s.rooms[code])
    ensures KeepsCredits(s, WithRoom(s, code, WithPlayer(s.rooms[code], user.username), user))
  {
    var room := s.rooms[code];
    var s' := WithRoom(s, code, WithPlayer(room, user.username), user);
    forall e | CreditedIn(s, e) ensures CreditedIn(s', e) {
      if e.0 == code {
        assert e.1 in room.answered;
      }
    }
  }

  lemma AddPlayerKeepsNames(s: State, code: string, user: User)
    requires UsersListed(s) && RoomsKeyed(s) && NamesUnique(s) && NewPlayer(s, code, user)
    ensures var s' := WithRoom(s, code, WithPlayer(s.rooms[code], user.username), user);
            UsersListed(s') && RoomsKeyed(s') && NamesUnique(s')
  {
  }

  lemma AddPlayerKeepsUsers(s: State, code: string, user: User)
    requires Good(s) && NewPlayer(s, code, user)
    ensures var s' := WithRoom(s, code, WithPlayer(s.rooms[code], user.username), user);
            UsersPlaced(s') && ResolversUnique(s') && AdminsPlaced(s')
  {
    AddPlayerPlacesUsers(s, code, user);
    AddPlayerKeepsResolversUnique(s, code, user);
    AddPlayerPlacesAdmins(s, code, user);
  }

  lemma AddPlayerPlacesUsers(s: State, code: string, user: User)
    requires UsersPlaced(s) && NewPlayer(s, code, user)
    ensures UsersPlaced(WithRoom(s, code, WithPlayer(s.rooms[code], user.username), user))
  {
  }

  lemma AddPlayerKeepsResolversUnique(s: State, code: string, user: User)
    requires UsersPlaced(s) && ResolversUnique(s) && NewPlayer(s, code, user)
    ensures ResolversUnique(WithRoom(s, code, WithPlayer(s.rooms[code], user.username), user))
  {
    forall u | u in s.users && s.users[u].currentRoom == code ensures s.users[u].username != user.username { }
  }

  lemma AddPlayerPlacesAdmins(s: State, code: string, user: User)
    requires AdminsPlaced(s) && NewPlayer(s, code, user)
    ensures AdminsPlaced(WithRoom(s, code, WithPlayer(s.rooms[code], user.username), user))
  {
  }

  lemma AddPlayerKeepsResolution(s: State, code: string, user: User)
    requires PlayersResolve(s) && NewPlayer(s, code, user)
    ensures PlayersResolve(WithRoom(s, code, WithPlayer(s.rooms[code], user.username), user))
  {
    var s' := WithRoom(s, code, WithPlayer(s.rooms[code], user.username), user);
    forall c, n | c in s'.rooms && n in s'.rooms[c].players ensures exists u :: Resolves(s'.users, u, n, c) {
      if c == code && n == user.username {
        assert Resolves(s'.users, user.id, n, c);
      } else {
        assert n in s.rooms[c].players;
        var u :| Resolves(s.users, u, n, c);
        assert Resolves(s'.users, u, n, c);
      }
    }
  }

  lemma JoinKeepsGood(s: State, code: string, username: string, newId: UserId)
    requires Good(s) && newId !in s.users
    ensures var s' := JoinRoom(s, code, username, newId).state;
            Good(s') && KeepsCredits(s, s')
  {
    var o := JoinRoom(s, code, username, newId);
    if o.result.Ok? && !o.result.value.rejoined {
      var user := User(newId, username, code, 0, false);
      assert o.state == WithRoom(s, code, WithPlayer(s.rooms[code], username), user);
      AddPlayerKeepsGood(s, code, user);
    }
  }

  lemma StartKeepsGood(s: State, code: string, adminId: UserId)
    requires Good(s)
    ensures var s' := StartQuiz(s, code, adminId).state;
            Good(s') && KeepsCredits(s, s')
  {
    StartKeepsShape(s, code, adminId);
    ShapeKeepsGood(s, StartQuiz(s, code, adminId).state);
  }

  lemma StartKeepsShape(s: State, code: string, adminId: UserId)
    requires RostersHold(s)
    ensures var s' := StartQuiz(s, code, adminId).state;
            SameShape(s, s') && RostersHold(s') && KeepsCredits(s, s')
  {
    var s' := StartQuiz(s, code, adminId).state;
    if s' != s {
      var room' := s.rooms[code].(started := true);
      assert s' == s.(rooms := s.rooms[code := room']);
      assert Roster(s.rooms[code]);
      ReplaceRoom(s, code, room');
    }
  }

  /** Crediting a member changes no name, so every invariant still holds. */
  lemma CreditKeepsGood(s: State, code: string, uid: UserId, points: int)
    requires Good(s) && code in s.rooms && uid in s.users
    requires s.users[uid].username in s.rooms[code].players
    ensures var s' := Credit(s, code, uid, points);
            Good(s') && KeepsCredits(s, s')
  {
    CreditKeepsShape(s, code, uid, points);
    ShapeKeepsGood(s, Credit(s, code, uid, points));
  }

  lemma CreditKeepsShape(s: State, code: string, uid: UserId, points: int)
    requires RostersHold(s) && code in s.rooms && uid in s.users
    requires s.users[uid].username in s.rooms[code].players
    ensures var s' := Credit(s, code, uid, points);
            SameShape(s, s') && RostersHold(s') && KeepsCredits(s, s')
  {
    var s' := Credit(s, code, uid, points);
    var room, room' := s.rooms[code], s'.rooms[code];
    CreditKeepsRoster(room, s.users[uid].username, room'.scores);
    ReplaceRoom(s, code, room');
    ScoreKeepsUsers(s.(rooms := s'.rooms), uid, s'.users[uid].score);
  }

  /** Changing a user's score keeps the users' shape. */
  lemma ScoreKeepsUsers(s: State, uid: UserId, score: int)
    requires uid in s.users
    ensures SameUsers(s, s.(users := s.users[uid := s.users[uid].(score := score)]))
  {
  }

  /** Rewriting a player's entry keeps the score table's names. */
  lemma CreditKeepsRoster(room: Room, name: string, scores: seq<Entry>)
    requires Roster(room) && name in room.players
    requires name in Names(scores) && DistinctNames(scores)
    requires forall other, d :: other != name ==> Get(scores, other, d) == Get(room.scores, other, d)
    ensures Roster(room.(scores := scores))
  {
    forall n ensures n in Names(scores) <==> n in room.players {
      if n != name {
        assert Get(scores, n, -1) == Get(room.scores, n, -1);
        assert Get(scores, n, 0) == Get(room.scores, n, 0);
      }
    }
  }

  lemma ScoreKeepsGood(s: State, code: string, uid: UserId, points: int)
    requires Good(s) && ByMember(s, code, uid)
    ensures var s' := UpdateScore(s, code, uid, points).state;
            Good(s') && KeepsCredits(s, s')
  {
    if code in s.rooms && uid in s.users {
      CreditKeepsGood(s, code, uid, points);
    }
  }

  /** Replacing a member's answered set keeps every invariant. */
  lemma MarkKeepsGood(s: State, code: string, name: string, qids: set<QuestionId>)
    requires Good(s) && code in s.rooms && name in s.rooms[code].players
    ensures Good(s.(rooms := s.rooms[code := s.rooms[code].(answered := s.rooms[code].answered[name := qids])]))
  {
    MarkKeepsShape(s, code, name, qids);
    ShapeKeepsGood(s, s.(rooms := s.rooms[code := s.rooms[code].(answered := s.rooms[code].answered[name := qids])]));
  }

  lemma MarkKeepsShape(s: State, code: string, name: string, qids: set<QuestionId>)
    requires RostersHold(s) && code in s.rooms && name in s.rooms[code].players
    ensures var s' := s.(rooms := s.rooms[code := s.rooms[code].(answered := s.rooms[code].answered[name := qids])]);
            SameShape(s, s') && RostersHold(s')
  {
    var room' := s.rooms[code].(answered := s.rooms[code].answered[name := qids]);
    assert Roster(s.rooms[code]);
    assert Roster(room');
    ReplaceRoom(s, code, room');
  }

  /** A submission is credited exactly when the reply reports one point
      earned; every other reply reports none. */
  lemma SubmitCredit(s: State, code: string, uid: UserId, qid: QuestionId, answer: string)
    ensures var o := SubmitAnswer(s, code, uid, qid, answer);
            CreditOf(s, code, uid, qid, answer).Some? <==>
              o.result.Ok? && o.result.value.Checked? && o.result.value.pointsEarned == 1
    ensures var o := SubmitAnswer(s, code, uid, qid, answer);
            o.result.Ok? && o.result.value.Checked? ==> o.result.value.pointsEarned in {0, 1}
  {
  }

  /** A first correct answer from a member keeps the invariants. */
  lemma RightAnswerKeepsGood(s: State, code: string, uid: UserId, qid: QuestionId, question: Question)
    requires Good(s) && code in s.rooms && uid in s.users
    requires s.users[uid].username in s.rooms[code].players
    ensures Good(AnswerRight(s, code, uid, qid, question).state)
  {
    var room, name := s.rooms[code], s.users[uid].username;
    var s1 := Credit(s, code, uid, 1);
    CreditKeepsGood(s, code, uid, 1);
    MarkKeepsGood(s1, code, name, AnsweredBy(room, name) + {qid});
    RecordRightIsCreditThenMark(s, code, uid, qid);
  }

  /** The state after a right answer is the credited state with the
      answered set extended. */
  lemma RecordRightIsCreditThenMark(s: State, code: string, uid: UserId, qid: QuestionId)
    requires code in s.rooms && uid in s.users
    ensures var room, name := s.rooms[code], s.users[uid].username;
            var s1 := Credit(s, code, uid, 1);
            && s1.rooms[code].answered == room.answered
            && RecordRight(s, code, uid, qid)
               == s1.(rooms := s1.rooms[code := s1.rooms[code].(answered := s1.rooms[code].answered[name := AnsweredBy(room, name) + {qid}])])
  {
    var room, name := s.rooms[code], s.users[uid].username;
    var s1 := Credit(s, code, uid, 1);
    var room' := RecordRight(s, code, uid, qid).rooms[code];
    assert room' == s1.rooms[code].(answered := room.answered[name := AnsweredBy(room, name) + {qid}]);
    assert s1.rooms[code := room'] == s.rooms[code := room'];
  }

  /** A correct answer keeps every recorded credit and records its own. */
  lemma RightAnswerRecords(s: State, code: string, uid: UserId, qid: QuestionId, question: Question)
    requires code in s.rooms && uid in s.users
    ensures var s' := AnswerRight(s, code, uid, qid, question).state;
            KeepsCredits(s, s') && CreditedIn(s', (code, s.users[uid].username, qid))
  {
    var room, name := s.rooms[code], s.users[uid].username;
    var s' := AnswerRight(s, code, uid, qid, question).state;
    forall e | CreditedIn(s, e) ensures CreditedIn(s', e) {
      if e.0 == code && e.1 == name {
        assert e.2 in AnsweredBy(room, name);
      }
    }
  }

  /** An answered set that only grows loses no credit. */
  lemma MarkKeepsCredits(s: State, code: string, name: string, qids: set<QuestionId>)
    requires code in s.rooms && AnsweredBy(s.rooms[code], name) <= qids
    ensures KeepsCredits(s, s.(rooms := s.rooms[code := s.rooms[code].(answered := s.rooms[code].answered[name := qids])]))
  {
    var s' := s.(rooms := s.rooms[code := s.rooms[code].(answered := s.rooms[code].answered[name := qids])]);
    forall e | CreditedIn(s, e) ensures CreditedIn(s', e) {
      if e.0 == code && e.1 == name {
        assert e.2 in AnsweredBy(s.rooms[code], name);
      }
    }
  }

  /** A member's submission keeps the invariants and the recorded credits. */
  lemma SubmitAnswerKeepsGood(s: State, code: string, uid: UserId, qid: QuestionId, answer: string)
    requires Good(s) && ByMember(s, code, uid)
    ensures var s' := SubmitAnswer(s, code, uid, qid, answer).state;
            Good(s') && KeepsCredits(s, s')
  {
    if AnswerGate(s, code, uid, qid).None? {
      var room, name := s.rooms[code], s.users[uid].username;
      var question := FindQuestion(room.questions, qid).value;
      if AlreadyCredited(room, name, qid) {
        assert SubmitAnswer(s, code, uid, qid, answer).state == s;
      } else if Matches(answer, question.correctAnswer) {
        assert SubmitAnswer(s, code, uid, qid, answer) == AnswerRight(s, code, uid, qid, question);
        RightAnswerKeepsGood(s, code, uid, qid, question);
        RightAnswerRecords(s, code, uid, qid, question);
      } else {
        var s' := s.(rooms := s.rooms[code := room.(answered := room.answered[name := AnsweredBy(room, name)])]);
        assert SubmitAnswer(s, code, uid, qid, answer).state == s';
        MarkKeepsGood(s, code, name, AnsweredBy(room, name));
        MarkKeepsCredits(s, code, name, AnsweredBy(room, name));
      }
    }
  }

  /** A credit a submission earns was not recorded before and is after. */
  lemma SubmitRecordsCredit(s: State, code: string, uid: UserId, qid: QuestionId, answer: string)
    ensures var step := Step(s, Submit(code, uid, qid, answer));
            step.1.Some? ==> !CreditedIn(s, step.1.value) && CreditedIn(step.0, step.1.value)
  {
    var step := Step(s, Submit(code, uid, qid, answer));
    if step.1.Some? {
      var question := FindQuestion(s.rooms[code].questions, qid).value;
      StepSubmitRight(s, code, uid, qid, answer);
      RightAnswerRecords(s, code, uid, qid, question);
    }
  }

  lemma SubmitKeepsGood(s: State, code: string, uid: UserId, qid: QuestionId, answer: string)
    requires Good(s) && ByMember(s, code, uid)
    ensures var step := Step(s, Submit(code, uid, qid, answer));
            && Good(step.0) && KeepsCredits(s, step.0)
            && (step.1.Some? ==> !CreditedIn(s, step.1.value) && CreditedIn(step.0, step.1.value))
  {
    SubmitRecordsCredit(s, code, uid, qid, answer);
    SubmitAnswerKeepsGood(s, code, uid, qid, answer);
  }

  lemma StepKeepsGood(s: State, req: Request)
    requires Good(s) && Admissible(s, req)
    ensures var step := Step(s, req);
            && Good(step.0) && KeepsCredits(s, step.0)
            && (step.1.Some? ==> !CreditedIn(s, step.1.value) && CreditedIn(step.0, step.1.value))
  {
    match req
    case Create(stream, name, topic, maxPlayers, questions, adminId) =>
      CreateKeepsGood(s, stream, name, topic, maxPlayers, questions, adminId);
    case Join(code, username, newId) => JoinKeepsGood(s, code, username, newId);
    case Start(code, adminId) => StartKeepsGood(s, code, adminId);
    case AddScore(code, uid, points) => ScoreKeepsGood(s, code, uid, points);
    case Submit(code, uid, qid, answer) => SubmitKeepsGood(s, code, uid, qid, answer);
  }

  // ---------------------------------------------------------------------
  // Properties of whole runs
  // ---------------------------------------------------------------------

  /** The credits of a run are new and pairwise distinct. */
  ghost predicate FreshCredits(s: State, s': State, cs: seq<CreditEvent>)
  {
    && KeepsCredits(s, s')
    && (forall i, j :: 0 <= i < j < |cs| ==> cs[i] != cs[j])
    && (forall i :: 0 <= i < |cs| ==> !CreditedIn(s, cs[i]) && CreditedIn(s', cs[i]))
  }

  /** One step's credit (if any) followed by the credits of the rest of
      the run are still new and distinct. */
  lemma PrependCredit(s: State, s1: State, s2: State, first: seq<CreditEvent>, rest: seq<CreditEvent>)
    requires FreshCredits(s, s1, first) && |first| <= 1
    requires FreshCredits(s1, s2, rest)
    ensures FreshCredits(s, s2, first + rest)
  {
    var cs := first + rest;
    forall i | 0 <= i < |cs| ensures !CreditedIn(s, cs[i]) && CreditedIn(s2, cs[i]) {
      if i >= |first| {
        assert cs[i] == rest[i - |first|];
      } else {
        assert cs[i] == first[i];
      }
    }
    forall i, j | 0 <= i < j < |cs| ensures cs[i] != cs[j] {
      if i >= |first| {
        assert cs[i] == rest[i - |first|] && cs[j] == rest[j - |first|];
      } else {
        assert cs[i] == first[0] && cs[j] == rest[j - 1];
        assert CreditedIn(s1, cs[i]) && !CreditedIn(s1, cs[j]);
      }
    }
  }

  /** Over any run of admissible requests from a state meeting the
      invariants, the invariants hold at the end. */
  lemma {:induction false} RunKeepsGood(s: State, reqs: seq<Request>)
    requires Good(s) && AdmissibleRun(s, reqs)
    ensures Good(Run(s, reqs).0)
    decreases |reqs|
  {
    if |reqs| > 0 {
      StepKeepsGood(s, reqs[0]);
      RunKeepsGood(Step(s, reqs[0]).0, reqs[1..]);
    }
  }

  /** Over any run of admissible requests from a state meeting the
      invariants, each (room, name, question) is credited at most once:
      the credits are pairwise distinct, none was recorded before the run
      and all are recorded after it. */
  lemma {:induction false} CreditAtMostOnce(s: State, reqs: seq<Request>)
    requires Good(s) && AdmissibleRun(s, reqs)
    ensures FreshCredits(s, Run(s, reqs).0, Run(s, reqs).1)
    decreases |reqs|
  {
    if |reqs| > 0 {
      var step := Step(s, reqs[0]);
      StepKeepsGood(s, reqs[0]);
      CreditAtMostOnce(step.0, reqs[1..]);
      StepCredits(s, step.0, step.1);
      PrependCredit(s, step.0, Run(step.0, reqs[1..]).0, Earned(step.1), Run(step.0, reqs[1..]).1);
    }
  }

  lemma StepCredits(s: State, s': State, credit: Option<CreditEvent>)
    requires KeepsCredits(s, s')
    requires credit.Some? ==> !CreditedIn(s, credit.value) && CreditedIn(s', credit.value)
    ensures FreshCredits(s, s', Earned(credit))
  {
  }

  /** Under the invariants a name among the players always resolves to a
      user, so joining never fails with `UsernameTaken`. */
  lemma NoUsernameConflict(s: State, code: string, username: string, newId: UserId)
    requires Good(s)
    ensures JoinRoom(s, code, username, newId).result != Err(UsernameTaken)
  {
    if code in s.rooms && username in s.rooms[code].players {
      var u :| Resolves(s.users, u, username, code);
      assert u in s.userOrder;
    }
  }

  /** Joining a room with spare capacity under the admin's display name
      hands back the admin's id and admin flag. */
  lemma RejoinAsAdmin(s: State, code: string, newId: UserId)
    requires Good(s) && code in s.rooms
    requires |s.rooms[code].players| < s.rooms[code].maxPlayers
    ensures var o := JoinRoom(s, code, AdminName(code), newId);
            && o.state == s
            && o.result.Ok? && o.result.value.rejoined
            && o.result.value.userId == s.rooms[code].adminId && o.result.value.isAdmin
  {
    var a := s.rooms[code].adminId;
    assert Resolves(s.users, a, AdminName(code), code);
    assert a in s.userOrder;
    var found := FindUser(s, AdminName(code), code);
    assert found.Some?;
  }

  /** A new display name in a room with spare capacity always joins, and
      the player list grows by exactly one. */
  lemma JoinWithNewName(s: State, code: string, username: string, newId: UserId)
    requires code in s.rooms && username !in s.rooms[code].players
    requires |s.rooms[code].players| < s.rooms[code].maxPlayers
    ensures var o := JoinRoom(s, code, username, newId);
            && o.result.Ok? && !o.result.value.rejoined && o.result.value.userId == newId
            && |o.state.rooms[code].players| == |s.rooms[code].players| + 1
  {
  }

  /** Starting twice is the same as starting once. */
  lemma StartIdempotent(s: State, code: string, adminId: UserId)
    requires code in s.rooms && adminId == s.rooms[code].adminId
    ensures var s1 := StartQuiz(s, code, adminId).state;
            && StartQuiz(s, code, adminId).result.Ok?
            && StartQuiz(s1, code, adminId).state == s1 && StartQuiz(s1, code, adminId).result.Ok?
  {
  }

  /** A correct answer submitted again earns nothing the second time and
      is reported as already answered, with the score the first one gave. */
  lemma SecondCorrectAnswerEarnsNothing(s: State, code: string, uid: UserId, qid: QuestionId, answer: string)
    requires Step(s, Submit(code, uid, qid, answer)).1.Some?
    ensures var s1 := SubmitAnswer(s, code, uid, qid, answer).state;
            var o := SubmitAnswer(s1, code, uid, qid, answer);
            && o.state == s1
            && o.result.Ok? && o.result.value.AlreadyAnswered?
            && o.result.value.currentScore == Get(s.rooms[code].scores, s.users[uid].username, 0) + 1
  {
    var name := s.users[uid].username;
    var question := FindQuestion(s.rooms[code].questions, qid).value;
    var s1 := AnswerRight(s, code, uid, qid, question).state;
    assert SubmitAnswer(s, code, uid, qid, answer).state == s1;
    RightAnswerRecords(s, code, uid, qid, question);
    RightAnswerKeepsGate(s, code, uid, qid, question);
    assert SubmitAnswer(s1, code, uid, qid, answer) == AnswerRepeated(s1, code, uid);
  }

  /** After a credited answer the same submission passes the same gate and
      finds the question credited. */
  lemma RightAnswerKeepsGate(s: State, code: string, uid: UserId, qid: QuestionId, question: Question)
    requires AnswerGate(s, code, uid, qid).None?
    ensures var s1 := AnswerRight(s, code, uid, qid, question).state;
            && AnswerGate(s1, code, uid, qid).None?
            && s1.users[uid].username == s.users[uid].username
            && s.users[uid].username in Names(s1.rooms[code].scores)
            && Get(s1.rooms[code].scores, s.users[uid].username, 0) == Get(s.rooms[code].scores, s.users[uid].username, 0) + 1
            && AlreadyCredited(s1.rooms[code], s.users[uid].username, qid)
  {
    var s1 := AnswerRight(s, code, uid, qid, question).state;
    var name := s.users[uid].username;
    var room1 := s1.rooms[code];
    assert room1.questions == s.rooms[code].questions && room1.started;
  }

  // ---------------------------------------------------------------------
  // Requests from users outside the room
  // ---------------------------------------------------------------------

  /** A score update for a user who is not a player of the room gives the
      room a score-table entry for a name that is not a player. */
  lemma OutsiderScoreBreaksRoster(s: State, code: string, uid: UserId, points: int)
    requires code in s.rooms && uid in s.users
    requires s.users[uid].username !in s.rooms[code].players
    ensures var room' := UpdateScore(s, code, uid, points).state.rooms[code];
            && s.users[uid].username in Names(room'.scores)
            && s.users[uid].username !in room'.players
            && !Roster(room')
  {
  }

  /** The submitter passes the gate with a right answer, is not a player
      of the room, the room has a free place, and `newId` is unused. */
  predicate OutsiderCanScore(s: State, code: string, uid: UserId, qid: QuestionId, answer: string, newId: UserId)
  {
    && AnswerGate(s, code, uid, qid).None?
    && newId !in s.users && newId != uid
    && s.users[uid].username !in s.rooms[code].players
    && |s.rooms[code].players| < s.rooms[code].maxPlayers
    && Matches(answer, FindQuestion(s.rooms[code].questions, qid).value.correctAnswer)
  }

  /** An outsider can be credited twice for one question: a correct answer
      records the question under its name, a later join under that name
      replaces the answered set with an empty one, and the same answer
      then earns the point again. */
  lemma OutsiderCreditedTwice(s: State, code: string, uid: UserId, qid: QuestionId, answer: string, newId: UserId)
    requires code in s.rooms && uid in s.users && newId !in s.users
    requires AnswerGate(s, code, uid, qid).None?
    requires s.users[uid].username !in s.rooms[code].players
    requires !AlreadyCredited(s.rooms[code], s.users[uid].username, qid)
    requires Matches(answer, FindQuestion(s.rooms[code].questions, qid).value.correctAnswer)
    requires |s.rooms[code].players| < s.rooms[code].maxPlayers
    ensures var reqs := [Submit(code, uid, qid, answer), Join(code, s.users[uid].username, newId),
                         Submit(code, uid, qid, answer)];
            var e := (code, s.users[uid].username, qid);
            Run(s, reqs).1 == [e, e]
  {
    var name := s.users[uid].username;
    var submit, join := Submit(code, uid, qid, answer), Join(code, name, newId);
    OutsiderSteps(s, code, uid, qid, answer, newId);
    CreditTwiceInThree(s, submit, join, submit, (code, name, qid));
  }

  /** Three requests crediting `e`, nothing, then `e` again credit `e`
      twice. */
  lemma CreditTwiceInThree(s: State, a: Request, b: Request, c: Request, e: CreditEvent)
    requires Step(s, a).1 == Some(e)
    requires Step(Step(s, a).0, b).1 == None
    requires Step(Step(Step(s, a).0, b).0, c).1 == Some(e)
    ensures Run(s, [a, b, c]).1 == [e, e]
  {
    RunOfThree(s, a, b, c);
    EarnedOnceNoneOnce(Step(s, a).1, Step(Step(s, a).0, b).1, Step(Step(Step(s, a).0, b).0, c).1, e);
  }

  lemma EarnedOnceNoneOnce(x: Option<CreditEvent>, y: Option<CreditEvent>, z: Option<CreditEvent>, e: CreditEvent)
    requires x == Some(e) && y == None && z == Some(e)
    ensures Earned(x) + (Earned(y) + Earned(z)) == [e, e]
  {
  }

  /** The credits of the three steps: one, none, one. */
  lemma OutsiderSteps(s: State, code: string, uid: UserId, qid: QuestionId, answer: string, newId: UserId)
    requires OutsiderCanScore(s, code, uid, qid, answer, newId)
    requires !AlreadyCredited(s.rooms[code], s.users[uid].username, qid)
    ensures var name := s.users[uid].username;
            var submit, join := Submit(code, uid, qid, answer), Join(code, name, newId);
            var s1 := Step(s, submit).0;
            var s2 := Step(s1, join).0;
            && Step(s, submit).1 == Some((code, name, qid))
            && Step(s1, join).1 == None
            && Step(s2, submit).1 == Some((code, name, qid))
  {
    var name := s.users[uid].username;
    var submit := Submit(code, uid, qid, answer);
    OutsiderFirstCredit(s, code, uid, qid, answer, newId);
    OutsiderCreditAfterJoin(Step(s, submit).0, code, uid, qid, answer, newId);
  }

  /** The outsider's first right answer is credited, and the outsider can
      still join under its name. */
  lemma OutsiderFirstCredit(s: State, code: string, uid: UserId, qid: QuestionId, answer: string, newId: UserId)
    requires OutsiderCanScore(s, code, uid, qid, answer, newId)
    requires !AlreadyCredited(s.rooms[code], s.users[uid].username, qid)
    ensures var step := Step(s, Submit(code, uid, qid, answer));
            && step.1 == Some((code, s.users[uid].username, qid))
            && step.0.users[uid].username == s.users[uid].username
            && OutsiderCanScore(step.0, code, uid, qid, answer, newId)
  {
    var q := FindQuestion(s.rooms[code].questions, qid).value;
    StepSubmitRight(s, code, uid, qid, answer);
    OutsiderStaysOutside(s, code, uid, qid, q, newId);
  }

  /** After the outsider joins under its name, the same right answer is
      credited again. */
  lemma OutsiderCreditAfterJoin(s: State, code: string, uid: UserId, qid: QuestionId, answer: string, newId: UserId)
    requires OutsiderCanScore(s, code, uid, qid, answer, newId)
    ensures var name := s.users[uid].username;
            var s2 := Step(s, Join(code, name, newId)).0;
            Step(s2, Submit(code, uid, qid, answer)).1 == Some((code, name, qid))
  {
    var name := s.users[uid].username;
    JoinForgetsAnswers(s, code, name, newId, uid, qid);
    var s2 := JoinRoom(s, code, name, newId).state;
    assert CreditOf(s2, code, uid, qid, answer) == Some((code, name, qid));
    assert Step(s, Join(code, name, newId)).0 == s2;
    assert Step(s2, Submit(code, uid, qid, answer)).1 == CreditOf(s2, code, uid, qid, answer);
  }

  /** The request step of a first correct answer past the gate. */
  lemma StepSubmitRight(s: State, code: string, uid: UserId, qid: QuestionId, answer: string)
    requires AnswerGate(s, code, uid, qid).None?
    requires !AlreadyCredited(s.rooms[code], s.users[uid].username, qid)
    requires Matches(answer, FindQuestion(s.rooms[code].questions, qid).value.correctAnswer)
    ensures var step := Step(s, Submit(code, uid, qid, answer));
            && step.0 == AnswerRight(s, code, uid, qid, FindQuestion(s.rooms[code].questions, qid).value).state
            && step.1 == Some((code, s.users[uid].username, qid))
  {
    SubmitIsRight(s, code, uid, qid, answer);
  }

  /** A first correct answer past the gate is scored as one. */
  lemma SubmitIsRight(s: State, code: string, uid: UserId, qid: QuestionId, answer: string)
    requires AnswerGate(s, code, uid, qid).None?
    requires !AlreadyCredited(s.rooms[code], s.users[uid].username, qid)
    requires Matches(answer, FindQuestion(s.rooms[code].questions, qid).value.correctAnswer)
    ensures SubmitAnswer(s, code, uid, qid, answer)
              == AnswerRight(s, code, uid, qid, FindQuestion(s.rooms[code].questions, qid).value)
  {
  }

  /** A credit to an outsider leaves them outside, with room to join. */
  lemma OutsiderStaysOutside(s: State, code: string, uid: UserId, qid: QuestionId, question: Question, newId: UserId)
    requires AnswerGate(s, code, uid, qid).None? && newId !in s.users
    requires s.users[uid].username !in s.rooms[code].players
    requires |s.rooms[code].players| < s.rooms[code].maxPlayers
    ensures var s1 := AnswerRight(s, code, uid, qid, question).state;
            && AnswerGate(s1, code, uid, qid).None?
            && s1.users[uid].username == s.users[uid].username
            && s1.rooms[code].players == s.rooms[code].players
            && s1.rooms[code].maxPlayers == s.rooms[code].maxPlayers
            && s1.rooms[code].questions == s.rooms[code].questions
            && newId !in s1.users && newId != uid
  {
  }

  /** A fresh join of a name empties its answered set and keeps every
      other user and the room's questions. */
  lemma JoinForgetsAnswers(s: State, code: string, name: string, newId: UserId, uid: UserId, qid: QuestionId)
    requires AnswerGate(s, code, uid, qid).None? && newId !in s.users && newId != uid
    requires s.users[uid].username == name && name !in s.rooms[code].players
    requires |s.rooms[code].players| < s.rooms[code].maxPlayers
    ensures var s2 := JoinRoom(s, code, name, newId).state;
            && AnswerGate(s2, code, uid, qid).None?
            && s2.users[uid] == s.users[uid]
            && s2.rooms[code].questions == s.rooms[code].questions
            && !AlreadyCredited(s2.rooms[code], name, qid)
  {
  }

  /** The credits of three requests in a row, one step at a time. */
  lemma RunOfThree(s: State, a: Request, b: Request, c: Request)
    ensures var s1 := Step(s, a).0;
            var s2 := Step(s1, b).0;
            Run(s, [a, b, c]).1 == Earned(Step(s, a).1) + (Earned(Step(s1, b).1) + Earned(Step(s2, c).1))
  {
    var s1 := Step(s, a).0;
    var s2 := Step(s1, b).0;
    var ea, eb, ec := Earned(Step(s, a).1), Earned(Step(s1, b).1), Earned(Step(s2, c).1);
    assert Run(s2, [c]).1 == ec by {
      RunCons(s2, c, []);
      assert [c] + [] == [c];
    }
    assert Run(s1, [b, c]).1 == eb + ec by {
      RunCons(s1, b, [c]);
      assert [b] + [c] == [b, c];
    }
    assert Run(s, [a, b, c]).1 == ea + (eb + ec) by {
      RunCons(s, a, [b, c]);
      assert [a] + [b, c] == [a, b, c];
    }
  }


  lemma RunCons(s: State, a: Request, rest: seq<Request>)
    ensures var step := Step(s, a);
            Run(s, [a] + rest) == (Run(step.0, rest).0, Earned(step.1) + Run(step.0, rest).1)
  {
    assert ([a] + rest)[1..] == rest;
  }


}

=== FILE: quiz.dfy ===
/** The room/session core of the quiz service: the registries of rooms
    and users and the request handlers that read and change them.

    Every handler is a pure function from the current state and the
    request to an `Outcome`: the state afterwards and either a reply or an
    error. Questions, fresh user ids and the random choices for room codes
    are inputs; persistence, HTTP and timestamps are not modelled. */
module Quiz {
  import opened Results
  import opened Scores
  import opened RoomCodes
  import opened Answers

  type UserId = string
  type QuestionId = string

  datatype Question = Question(id: QuestionId, text: string, options: seq<string>, correctAnswer: string)

  /** A question as shown to players: its correct answer withheld. */
  datatype QuestionView = QuestionView(id: QuestionId, text: string, options: seq<string>)

  /** A quiz room. `scores` is the room's score table in insertion order;
      `answered` maps a display name to the ids of the questions that name
      was already credited for. `currentQuestion` is stored but never
      advanced. */
  datatype Room = Room(
    id: string,
    name: string,
    topic: string,
    maxPlayers: int,
    questions: seq<Question>,
    players: seq<string>,
    adminId: UserId,
    currentQuestion: int,
    scores: seq<Entry>,
    started: bool,
    answered: map<string, set<QuestionId>>)

  datatype User = User(id: UserId, username: string, currentRoom: string, score: int, isAdmin: bool)

  /** The two process-wide registries. `userOrder` lists the user ids in
      the order they were first registered, the iteration order of the
      source's user dict. */
  datatype State = State(rooms: map<string, Room>, users: map<UserId, User>, userOrder: seq<UserId>)

  datatype Outcome<+T> = Outcome(state: State, result: Result<T>)

  // ---------------------------------------------------------------------
  // Replies
  // ---------------------------------------------------------------------

  datatype Created = Created(roomId: string, adminId: UserId, adminUsername: string, topic: string, questionsCount: nat)

  datatype Joined = Joined(
    userId: UserId,
    isAdmin: bool,
    rejoined: bool,
    players: seq<string>,
    questions: seq<QuestionView>,
    started: bool,
    currentQuestion: int,
    totalQuestions: nat,
    leaderboard: seq<Entry>)

  datatype Started = Started(roomId: string, playersCount: nat)

  datatype ScoreUpdated = ScoreUpdated(username: string, newScore: int, leaderboard: seq<Entry>)

  datatype Answered =
    | AlreadyAnswered(currentScore: int, leaderboard: seq<Entry>)
    | Checked(correct: bool, correctAnswer: string, pointsEarned: nat, currentScore: int, leaderboard: seq<Entry>)

  datatype Status = Status(
    name: string,
    topic: string,
    players: seq<string>,
    currentQuestion: int,
    totalQuestions: nat,
    scores: seq<Entry>,
    started: bool,
    adminId: UserId,
    waitingForAdmin: bool,
    leaderboard: seq<Entry>)

  datatype Board = Board(roomName: string, leaderboard: seq<Entry>)

  // ---------------------------------------------------------------------
  // Helpers
  // ---------------------------------------------------------------------

  /** Display name of a room's admin: "Admin-" and the code's first three
      characters (a Python slice, so shorter codes are taken whole). */
  function AdminName(code: string): string
  {
    "Admin-" + (if |code| < 3 then code else code[..3])
  }

  predicate NameInUse(s: State, name: string)
  {
    exists code :: code in s.rooms && s.rooms[code].name == name
  }

  /** `users[u.id] = u`: an existing id keeps its place in the order. */
  function Register(s: State, u: User): (s': State)
    ensures s'.rooms == s.rooms
    ensures s'.users == s.users[u.id := u]
    ensures s'.userOrder == if u.id in s.users then s.userOrder else s.userOrder + [u.id]
  {
    State(s.rooms, s.users[u.id := u], if u.id in s.users then s.userOrder else s.userOrder + [u.id])
  }

  predicate Resolves(users: map<UserId, User>, uid: UserId, username: string, code: string)
  {
    uid in users && users[uid].username == username && users[uid].currentRoom == code
  }

  /** Position in `order` of the first user with this name whose current
      room is `code`, or -1. */
  function FindUserIndex(order: seq<UserId>, users: map<UserId, User>, username: string, code: string): (k: int)
    ensures -1 <= k < |order|
    ensures k >= 0 ==> Resolves(users, order[k], username, code)
    ensures k >= 0 ==> forall j :: 0 <= j < k ==> !Resolves(users, order[j], username, code)
    ensures k < 0 ==> forall j :: 0 <= j < |order| ==> !Resolves(users, order[j], username, code)
  {
    if |order| == 0 then -1
    else if Resolves(users, order[0], username, code) then 0
    else
      var k := FindUserIndex(order[1..], users, username, code);
      if k < 0 then -1 else k + 1
  }

  /** The rejoin scan: the first registered user with this name in room
      `code`. */
  function FindUser(s: State, username: string, code: string): (r: Option<UserId>)
    ensures r.Some? ==> Resolves(s.users, r.value, username, code)
    ensures r.None? ==> forall uid :: uid in s.userOrder ==> !Resolves(s.users, uid, username, code)
  {
    var k := FindUserIndex(s.userOrder, s.users, username, code);
    if k < 0 then None else Some(s.userOrder[k])
  }

  /** The first question of the room with this id. */
  function FindQuestion(questions: seq<Question>, qid: QuestionId): (r: Option<Question>)
    ensures r.Some? ==> r.value in questions && r.value.id == qid
    ensures r.None? <==> forall k :: 0 <= k < |questions| ==> questions[k].id != qid
  {
    if |questions| == 0 then None
    else if questions[0].id == qid then Some(questions[0])
    else FindQuestion(questions[1..], qid)
  }

  function Views(questions: seq<Question>): (vs: seq<QuestionView>)
    ensures |vs| == |questions|
    ensures forall k :: 0 <= k < |questions| ==>
              vs[k] == QuestionView(questions[k].id, questions[k].text, questions[k].options)
  {
    seq(|questions|, k requires 0 <= k < |questions| =>
      QuestionView(questions[k].id, questions[k].text, questions[k].options))
  }

  function JoinedReply(room: Room, uid: UserId, isAdmin: bool, rejoined: bool): Joined
  {
    Joined(uid, isAdmin, rejoined, room.players, Views(room.questions), room.started,
           room.currentQuestion, |room.questions|, Rank(room.scores))
  }

  /** Adds `points` to the user's entry in the room's score table (an
      absent entry counts as 0 and is appended) and to the user's own
      score. */
  function Credit(s: State, code: string, uid: UserId, points: int): (s': State)
    requires code in s.rooms && uid in s.users
    ensures code in s'.rooms && s'.rooms == s.rooms[code := s'.rooms[code]] && s'.userOrder == s.userOrder
    ensures var name, room, room' := s.users[uid].username, s.rooms[code], s'.rooms[code];
            && Get(room'.scores, name, 0) == Get(room.scores, name, 0) + points
            && (forall other, d :: other != name ==> Get(room'.scores, other, d) == Get(room.scores, other, d))
            && name in Names(room'.scores)
            && (name in Names(room.scores) ==> Names(room'.scores) == Names(room.scores))
            && (name !in Names(room.scores) ==> Names(room'.scores) == Names(room.scores) + [name])
            && room' == room.(scores := room'.scores)
    ensures s'.users == s.users[uid := s.users[uid].(score := s.users[uid].score + points)]
  {
    var room, name := s.rooms[code], s.users[uid].username;
    var scores := Put(room.scores, name, Get(room.scores, name, 0) + points);
    var users := s.users[uid := s.users[uid].(score := s.users[uid].score + points)];
    State(s.rooms[code := room.(scores := scores)], users, s.userOrder)
  }

  // ---------------------------------------------------------------------
  // Handlers
  // ---------------------------------------------------------------------

  /** The room and admin that a successful create adds. */
  ghost predicate CreatedAs(s: State, s': State, reply: Created, name: string, topic: string,
                            maxPlayers: int, questions: seq<Question>, adminId: UserId)
  {
    var code, admin := reply.roomId, AdminName(reply.roomId);
    && ValidCode(code)
    && code !in s.rooms
    && reply == Created(code, adminId, admin, topic, |questions|)
    && s'.rooms == s.rooms[code := Room(code, name, topic, maxPlayers, questions, [admin], adminId,
                                        0, [(admin, 0)], false, map[admin := {}])]
    && s'.users == s.users[adminId := User(adminId, admin, code, 0, true)]
    && s'.userOrder == if adminId in s.users then s.userOrder else s.userOrder + [adminId]
  }

  /** `create_room`: allocates a free code, rejects a name another room
      already has, then adds the room with its admin as sole player and
      registers the admin user. */
  function CreateRoom(s: State, stream: seq<Choice>, name: string, topic: string, maxPlayers: int,
                      questions: seq<Question>, adminId: UserId): (o: Outcome<Created>)
    ensures o.result.Err? ==> o.state == s
    ensures FirstFreeCode(s.rooms.Keys, stream).None? <==> o.result == Err(CodeSupplyExhausted)
    ensures FirstFreeCode(s.rooms.Keys, stream).Some? ==>
              (o.result == Err(RoomNameTaken) <==> NameInUse(s, name))
    ensures FirstFreeCode(s.rooms.Keys, stream).Some? && !NameInUse(s, name) ==> o.result.Ok?
    ensures o.result.Ok? ==>
              && o.result.value.roomId == FirstFreeCode(s.rooms.Keys, stream).value
              && CreatedAs(s, o.state, o.result.value, name, topic, maxPlayers, questions, adminId)
  {
    match FirstFreeCode(s.rooms.Keys, stream)
    case None => Outcome(s, Err(CodeSupplyExhausted))
    case Some(code) =>
      if NameInUse(s, name) then Outcome(s, Err(RoomNameTaken))
      else
        var admin := AdminName(code);
        var room := Room(code, name, topic, maxPlayers, questions, [admin], adminId,
                         0, [(admin, 0)], false, map[admin := {}]);
        var s1 := Register(s, User(adminId, admin, code, 0, true));
        Outcome(s1.(rooms := s1.rooms[code := room]), Ok(Created(code, adminId, admin, topic, |questions|)))
  }

  /** `join_room`: unknown room, then a full room, then a name already
      among the players (rejoin as the first user that resolves it, or a
      conflict), and otherwise a new player appended at the end. */
  function JoinRoom(s: State, code: string, username: string, newId: UserId): (o: Outcome<Joined>)
    ensures o.result.Err? ==> o.state == s
    ensures code !in s.rooms <==> o.result == Err(RoomNotFound)
    ensures code in s.rooms ==>
              (|s.rooms[code].players| >= s.rooms[code].maxPlayers <==> o.result == Err(RoomFull))
    ensures o.result.Ok? ==> code in s.rooms && o.state.rooms.Keys == s.rooms.Keys
    ensures code in s.rooms && |s.rooms[code].players| < s.rooms[code].maxPlayers
              && username in s.rooms[code].players ==>
              && o.state == s
              && (o.result == Err(UsernameTaken) <==> FindUser(s, username, code).None?)
              && (o.result.Ok? <==> FindUser(s, username, code).Some?)
              && (o.result.Ok? ==>
                    var uid := FindUser(s, username, code).value;
                    o.result.value == JoinedReply(s.rooms[code], uid, s.users[uid].isAdmin, true))
    ensures code in s.rooms && |s.rooms[code].players| < s.rooms[code].maxPlayers
              && username !in s.rooms[code].players ==>
              o.result.Ok? && !o.result.value.rejoined
    ensures o.result.Ok? && !o.result.value.rejoined ==>
              var room, room' := s.rooms[code], o.state.rooms[code];
              && username !in room.players
              && room'.players == room.players + [username]
              && |room'.players| == |room.players| + 1
              && room'.scores == Put(room.scores, username, 0)
              && Get(room'.scores, username, -1) == 0
              && (forall other, d :: other != username ==> Get(room'.scores, other, d) == Get(room.scores, other, d))
              && (username !in Names(room.scores) ==> Names(room'.scores) == Names(room.scores) + [username])
              && room'.answered == room.answered[username := {}]
              && room' == room.(players := room'.players, scores := room'.scores, answered := room'.answered)
              && o.state.rooms == s.rooms[code := room']
              && o.state.users == s.users[newId := User(newId, username, code, 0, false)]
              && o.state.userOrder == (if newId in s.users then s.userOrder else s.userOrder + [newId])
              && o.result.value.userId == newId && !o.result.value.isAdmin
              && o.result.value == JoinedReply(room', newId, false, false)
    ensures o.result.Ok? ==> StableDescending(o.result.value.leaderboard, o.state.rooms[code].scores)
  {
    if code !in s.rooms then Outcome(s, Err(RoomNotFound))
    else
      var room := s.rooms[code];
      if |room.players| >= room.maxPlayers then Outcome(s, Err(RoomFull))
      else if username in room.players then
        match FindUser(s, username, code)
        case Some(uid) =>
          RankIsStableDescending(room.scores);
          Outcome(s, Ok(JoinedReply(room, uid, s.users[uid].isAdmin, true)))
        case None => Outcome(s, Err(UsernameTaken))
      else
        var room' := room.(players := room.players + [username],
                           scores := Put(room.scores, username, 0),
                           answered := room.answered[username := {}]);
        var s1 := Register(s, User(newId, username, code, 0, false));
        RankIsStableDescending(room'.scores);
        Outcome(s1.(rooms := s1.rooms[code := room']), Ok(JoinedReply(room', newId, false, false)))
  }

  /** `start_quiz`: only the room's admin may start it; starting sets the
      started flag and nothing else. */
  function StartQuiz(s: State, code: string, adminId: UserId): (o: Outcome<Started>)
    ensures o.result.Err? ==> o.state == s
    ensures code !in s.rooms <==> o.result == Err(RoomNotFound)
    ensures code in s.rooms ==> (adminId != s.rooms[code].adminId <==> o.result == Err(NotAdmin))
    ensures code in s.rooms && adminId == s.rooms[code].adminId ==> o.result.Ok?
    ensures o.result.Ok? ==>
              && o.state == s.(rooms := s.rooms[code := s.rooms[code].(started := true)])
              && o.result.value == Started(code, |s.rooms[code].players|)
  {
    if code !in s.rooms then Outcome(s, Err(RoomNotFound))
    else
      var room := s.rooms[code];
      if room.adminId != adminId then Outcome(s, Err(NotAdmin))
      else Outcome(s.(rooms := s.rooms[code := room.(started := true)]), Ok(Started(code, |room.players|)))
  }

  /** `update_score`: looks up room and user (the user need not belong to
      the room) and adds a signed delta, without bound, to the user's
      entry in the room's score table and to the user's own score. */
  function UpdateScore(s: State, code: string, uid: UserId, points: int): (o: Outcome<ScoreUpdated>)
    ensures o.result.Err? ==> o.state == s
    ensures code !in s.rooms <==> o.result == Err(RoomNotFound)
    ensures code in s.rooms ==> (uid !in s.users <==> o.result == Err(UserNotFound))
    ensures code in s.rooms && uid in s.users ==> o.result.Ok?
    ensures o.result.Ok? ==> code in s.rooms && uid in s.users && o.state.rooms.Keys == s.rooms.Keys
    ensures o.result.Ok? ==>
              var name, room, room' := s.users[uid].username, s.rooms[code], o.state.rooms[code];
              && o.state == Credit(s, code, uid, points)
              && Get(room'.scores, name, 0) == Get(room.scores, name, 0) + points
              && o.state.users[uid].score == s.users[uid].score + points
              && o.result.value.username == name
              && o.result.value.newScore == Get(room'.scores, name, 0)
              && StableDescending(o.result.value.leaderboard, room'.scores)
  {
    if code !in s.rooms then Outcome(s, Err(RoomNotFound))
    else if uid !in s.users then Outcome(s, Err(UserNotFound))
    else
      var name := s.users[uid].username;
      var s' := Credit(s, code, uid, points);
      var scores := s'.rooms[code].scores;
      RankIsStableDescending(scores);
      Outcome(s', Ok(ScoreUpdated(name, Get(scores, name, 0), Rank(scores))))
  }

  /** The checks `submit_answer` makes before it looks at the answer, in
      order, or `None` when they all pass. */
  function AnswerGate(s: State, code: string, uid: UserId, qid: QuestionId): Option<Error>
  {
    if code !in s.rooms then Some(RoomNotFound)
    else if uid !in s.users then Some(UserNotFound)
    else if !s.rooms[code].started then Some(NotStarted)
    else if FindQuestion(s.rooms[code].questions, qid).None? then Some(QuestionNotFound)
    else None
  }

  /** Whether the submitter's name was already credited for `qid` in the
      room. */
  predicate AlreadyCredited(room: Room, name: string, qid: QuestionId)
  {
    name in room.answered && qid in room.answered[name]
  }

  /** `submit_answer`. After the gate, a name without an answered set gets
      an empty one; a question already credited to the name is reported
      without scoring; a first correct answer (ignoring case) earns one
      point and records the question; a wrong answer earns nothing. The
      reply reads the submitter's score table entry, and fails with a
      KeyError when there is none: that happens after the empty answered
      set was recorded, so that error leaves it in place. */
  function SubmitAnswer(s: State, code: string, uid: UserId, qid: QuestionId, answer: string): (o: Outcome<Answered>)
    ensures code !in s.rooms <==> o.result == Err(RoomNotFound)
    ensures code in s.rooms ==> (uid !in s.users <==> o.result == Err(UserNotFound))
    ensures code in s.rooms && uid in s.users ==>
              (!s.rooms[code].started <==> o.result == Err(NotStarted))
    ensures code in s.rooms && uid in s.users && s.rooms[code].started ==>
              (FindQuestion(s.rooms[code].questions, qid).None? <==> o.result == Err(QuestionNotFound))
    ensures o.result in {Err(RoomNotFound), Err(UserNotFound), Err(NotStarted), Err(QuestionNotFound)} ==> o.state == s
    ensures AnswerGate(s, code, uid, qid).Some? ==>
              o == Outcome(s, Err(AnswerGate(s, code, uid, qid).value))
    ensures AnswerGate(s, code, uid, qid).None? ==>
              var room, name := s.rooms[code], s.users[uid].username;
              var question := FindQuestion(room.questions, qid).value;
              && (AlreadyCredited(room, name, qid) ==> o == AnswerRepeated(s, code, uid))
              && (!AlreadyCredited(room, name, qid) && Matches(answer, question.correctAnswer) ==>
                    o == AnswerRight(s, code, uid, qid, question))
              && (!AlreadyCredited(room, name, qid) && !Matches(answer, question.correctAnswer) ==>
                    o == AnswerWrong(s, code, uid, question))
  {
    match AnswerGate(s, code, uid, qid)
    case Some(e) => Outcome(s, Err(e))
    case None =>
      var room, name := s.rooms[code], s.users[uid].username;
      var question := FindQuestion(room.questions, qid).value;
      if AlreadyCredited(room, name, qid) then AnswerRepeated(s, code, uid)
      else if Matches(answer, question.correctAnswer) then AnswerRight(s, code, uid, qid, question)
      else AnswerWrong(s, code, uid, question)
  }

  /** A question already credited to the submitter's name: no state
      change, no points. */
  function AnswerRepeated(s: State, code: string, uid: UserId): (o: Outcome<Answered>)
    requires code in s.rooms && uid in s.users
    ensures o.state == s
    ensures var room, name := s.rooms[code], s.users[uid].username;
            && (name in Names(room.scores) <==> o.result.Ok?)
            && (o.result.Ok? ==>
                  && o.result.value.AlreadyAnswered?
                  && o.result.value.currentScore == Get(room.scores, name, 0)
                  && StableDescending(o.result.value.leaderboard, room.scores))
            && (o.result.Err? ==> o.result.error == ScoreMissing)
  {
    var room, name := s.rooms[code], s.users[uid].username;
    if name !in Names(room.scores) then Outcome(s, Err(ScoreMissing))
    else
      RankIsStableDescending(room.scores);
      Outcome(s, Ok(AlreadyAnswered(Get(room.scores, name, 0), Rank(room.scores))))
  }

  /** A first correct answer: one point, then the reply with the new
      score and leaderboard. */
  function AnswerRight(s: State, code: string, uid: UserId, qid: QuestionId, question: Question): (o: Outcome<Answered>)
    requires code in s.rooms && uid in s.users
    ensures o.state == RecordRight(s, code, uid, qid)
    ensures var scores, name := o.state.rooms[code].scores, s.users[uid].username;
            && o.result.Ok?
            && o.result.value == Checked(true, question.correctAnswer, 1, Get(scores, name, 0), o.result.value.leaderboard)
            && StableDescending(o.result.value.leaderboard, scores)
  {
    var s' := RecordRight(s, code, uid, qid);
    var scores := s'.rooms[code].scores;
    RankIsStableDescending(scores);
    Outcome(s', Ok(Checked(true, question.correctAnswer, 1, Get(scores, s.users[uid].username, 0), Rank(scores))))
  }

  /** The state after a first correct answer: one point added to the
      submitter's table entry and to the user, and the question recorded
      as credited to the name. */
  function RecordRight(s: State, code: string, uid: UserId, qid: QuestionId): (s': State)
    requires code in s.rooms && uid in s.users
    ensures code in s'.rooms && s'.rooms == s.rooms[code := s'.rooms[code]]
    ensures s'.userOrder == s.userOrder
    ensures s'.users == s.users[uid := s.users[uid].(score := s.users[uid].score + 1)]
    ensures var room, room', name := s.rooms[code], s'.rooms[code], s.users[uid].username;
            && Get(room'.scores, name, 0) == Get(room.scores, name, 0) + 1
            && (forall other, d :: other != name ==> Get(room'.scores, other, d) == Get(room.scores, other, d))
            && name in Names(room'.scores)
            && (name in Names(room.scores) ==> Names(room'.scores) == Names(room.scores))
            && (name !in Names(room.scores) ==> Names(room'.scores) == Names(room.scores) + [name])
            && room'.answered == room.answered[name := AnsweredBy(room, name) + {qid}]
            && room' == room.(scores := room'.scores, answered := room'.answered)
  {
    var room, name := s.rooms[code], s.users[uid].username;
    var s1 := Credit(s, code, uid, 1);
    var room' := room.(scores := s1.rooms[code].scores, answered := room.answered[name := AnsweredBy(room, name) + {qid}]);
    s1.(rooms := s.rooms[code := room'])
  }

  /** A wrong answer: no points; the name's (possibly new, empty) answered
      set is recorded, then the reply reads its score table entry. */
  function AnswerWrong(s: State, code: string, uid: UserId, question: Question): (o: Outcome<Answered>)
    requires code in s.rooms && uid in s.users
    ensures o.state.users == s.users && o.state.userOrder == s.userOrder
    ensures o.state.rooms.Keys == s.rooms.Keys
    ensures forall c :: c in s.rooms && c != code ==> o.state.rooms[c] == s.rooms[c]
    ensures var room, room', name := s.rooms[code], o.state.rooms[code], s.users[uid].username;
            && room' == room.(answered := room.answered[name := AnsweredBy(room, name)])
            && (name in Names(room.scores) <==> o.result.Ok?)
            && (o.result.Ok? ==>
                  && o.result.value == Checked(false, question.correctAnswer, 0, Get(room.scores, name, 0), o.result.value.leaderboard)
                  && StableDescending(o.result.value.leaderboard, room.scores))
            && (o.result.Err? ==> o.result.error == ScoreMissing)
  {
    var room, name := s.rooms[code], s.users[uid].username;
    var s1 := s.(rooms := s.rooms[code := room.(answered := room.answered[name := AnsweredBy(room, name)])]);
    if name !in Names(room.scores) then Outcome(s1, Err(ScoreMissing))
    else
      RankIsStableDescending(room.scores);
      Outcome(s1, Ok(Checked(false, question.correctAnswer, 0, Get(room.scores, name, 0), Rank(room.scores))))
  }

  /** The questions already credited to `name` in the room; none when the
      name has no answered set yet. */
  function AnsweredBy(room: Room, name: string): set<QuestionId>
  {
    if name in room.answered then room.answered[name] else {}
  }

  /** `get_room_status`: a read of the room with its leaderboard. */
  function RoomStatus(s: State, code: string): (r: Result<Status>)
    ensures code !in s.rooms <==> r == Err(RoomNotFound)
    ensures code in s.rooms ==> r.Ok?
    ensures r.Ok? ==>
              var room := s.rooms[code];
              && r.value.name == room.name && r.value.topic == room.topic
              && r.value.currentQuestion == room.currentQuestion
              && r.value.players == room.players && r.value.scores == room.scores
              && r.value.started == room.started && r.value.waitingForAdmin == !room.started
              && r.value.adminId == room.adminId && r.value.totalQuestions == |room.questions|
              && StableDescending(r.value.leaderboard, room.scores)
  {
    if code !in s.rooms then Err(RoomNotFound)
    else
      var room := s.rooms[code];
      RankIsStableDescending(room.scores);
      Ok(Status(room.name, room.topic, room.players, room.currentQuestion, |room.questions|,
                room.scores, room.started, room.adminId, !room.started, Rank(room.scores)))
  }

  /** `get_leaderboard`: the room's name and its score table ranked by
      descending score, ties in table order. */
  function RoomLeaderboard(s: State, code: string): (r: Result<Board>)
    ensures code !in s.rooms <==> r == Err(RoomNotFound)
    ensures code in s.rooms ==> r.Ok?
    ensures r.Ok? ==>
              && r.value.roomName == s.rooms[code].name
              && StableDescending(r.value.leaderboard, s.rooms[code].scores)
  {
    if code !in s.rooms then Err(RoomNotFound)
    else
      RankIsStableDescending(s.rooms[code].scores);
      Ok(Board(s.rooms[code].name, Rank(s.rooms[code].scores)))
  }
}

=== FILE: results.dfy ===
/** Optional values and the error-or-value results every handler of the
    quiz service returns. The error kinds are the distinct failures the
    handlers raise; HTTP status codes are not modelled. */
module Results {

  datatype Option<+T> = None | Some(value: T)

  /** The ways a request can fail. */
  datatype Error =
    | RoomNotFound        // unknown room code
    | UserNotFound        // unknown user id
    | QuestionNotFound    // question id not among the room's questions
    | RoomNameTaken       // another room already has the requested name
    | RoomFull            // the player list has reached the capacity
    | UsernameTaken       // name is a player but no user record resolves it
    | NotAdmin            // start requested by someone other than the admin
    | NotStarted          // answer submitted before the quiz was started
    | ScoreMissing        // the score table has no entry for the submitter (a KeyError)
    | CodeSupplyExhausted // the random choices ran out before a free room code came up

  datatype Result<+T> = Ok(value: T) | Err(error: Error)
}

=== FILE: scores.dfy ===
/** A room's score table and its leaderboard.

    The table is a Python dict from display name to points; dicts keep
    insertion order, so it is modelled as an association list whose names
    are pairwise distinct. The leaderboard is the table sorted by points,
    highest first, with a stable sort: equal scores keep table order. */
module Scores {

  /** One score-table entry: a display name and its points. */
  type Entry = (string, int)

  function Names(table: seq<Entry>): (ns: seq<string>)
    ensures |ns| == |table|
    ensures forall i :: 0 <= i < |table| ==> ns[i] == table[i].0
  {
    seq(|table|, i requires 0 <= i < |table| => table[i].0)
  }

  predicate DistinctNames(table: seq<Entry>)
  {
    forall i, j :: 0 <= i < j < |table| ==> table[i].0 != table[j].0
  }

  /** Position of `name` in the table, or -1 when it has no entry. */
  function IndexOf(table: seq<Entry>, name: string): (k: int)
    ensures -1 <= k < |table|
    ensures k >= 0 ==> table[k].0 == name && forall j :: 0 <= j < k ==> table[j].0 != name
    ensures k < 0 <==> name !in Names(table)
  {
    if |table| == 0 then -1
    else if table[0].0 == name then 0
    else
      var k := IndexOf(table[1..], name);
      assert Names(table) == [table[0].0] + Names(table[1..]);
      if k < 0 then -1 else k + 1
  }

  /** `table.get(name, default)`. */
  function Get(table: seq<Entry>, name: string, default: int): (v: int)
    ensures name !in Names(table) ==> v == default
    ensures DistinctNames(table) ==>
              forall i :: 0 <= i < |table| && table[i].0 == name ==> v == table[i].1
  {
    var k := IndexOf(table, name);
    if k < 0 then default else table[k].1
  }

  /** `table[name] = value`: an existing entry is overwritten where it
      stands, a new one goes at the end. */
  function Put(table: seq<Entry>, name: string, value: int): (t: seq<Entry>)
    ensures name in Names(table) ==> Names(t) == Names(table)
    ensures name !in Names(table) ==> Names(t) == Names(table) + [name]
    ensures Get(t, name, 0) == value
    ensures forall other, d :: other != name ==> Get(t, other, d) == Get(table, other, d)
    ensures DistinctNames(table) ==> DistinctNames(t)
  {
    var k := IndexOf(table, name);
    if k < 0 then
      var t := table + [(name, value)];
      assert Names(t) == Names(table) + [name];
      assert forall other | other != name :: IndexOf(t, other) == IndexOf(table, other) by {
        forall other | other != name ensures IndexOf(t, other) == IndexOf(table, other) {
          IndexOfAppend(table, (name, value), other);
        }
      }
      t
    else
      var t := table[k := (name, value)];
      assert Names(t) == Names(table);
      assert forall other | other != name :: IndexOf(t, other) == IndexOf(table, other) by {
        forall other | other != name ensures IndexOf(t, other) == IndexOf(table, other) {
          IndexOfSameNames(t, table, other);
        }
      }
      t
  }

  lemma IndexOfAppend(table: seq<Entry>, e: Entry, name: string)
    requires e.0 != name
    ensures IndexOf(table + [e], name) == IndexOf(table, name)
  {
    var k, k' := IndexOf(table + [e], name), IndexOf(table, name);
    assert Names(table + [e]) == Names(table) + [e.0];
    if k' >= 0 {
      assert (table + [e])[k'] == table[k'];
    }
  }

  lemma IndexOfSameNames(t: seq<Entry>, table: seq<Entry>, name: string)
    requires Names(t) == Names(table)
    ensures IndexOf(t, name) == IndexOf(table, name)
  {
    var k, k' := IndexOf(t, name), IndexOf(table, name);
    if k >= 0 && k' >= 0 {
      assert Names(t)[k] == name && Names(t)[k'] == name;
    }
  }

  // ---------------------------------------------------------------------
  // Leaderboard: sorted(table.items(), key=points, reverse=True)
  // ---------------------------------------------------------------------

  /** Places `e` in front of every entry with at most its score; as `e`
      precedes all of `sorted` in the original table, this keeps ties in
      table order. */
  function Insert(e: Entry, sorted: seq<Entry>): (r: seq<Entry>)
    ensures multiset(r) == multiset(sorted) + multiset{e}
    ensures |r| == |sorted| + 1 && (r[0] == e || (|sorted| > 0 && r[0] == sorted[0]))
    ensures NonIncreasing(sorted) ==> NonIncreasing(r)
  {
    if |sorted| == 0 then [e]
    else if e.1 >= sorted[0].1 then
      PrependKeepsOrder(e, sorted);
      [e] + sorted
    else
      var rest := Insert(e, sorted[1..]);
      assert sorted == [sorted[0]] + sorted[1..];
      DropKeepsOrder(sorted);
      PrependKeepsOrder(sorted[0], rest);
      [sorted[0]] + rest
  }

  lemma PrependKeepsOrder(x: Entry, s: seq<Entry>)
    ensures NonIncreasing(s) && (|s| == 0 || s[0].1 <= x.1) ==> NonIncreasing([x] + s)
  {
    if NonIncreasing(s) && (|s| == 0 || s[0].1 <= x.1) {
      forall i, j | 0 <= i < j < |[x] + s| ensures ([x] + s)[i].1 >= ([x] + s)[j].1 {
        if i == 0 && j > 1 {
          assert s[0].1 >= s[j - 1].1;
        }
      }
    }
  }

  lemma DropKeepsOrder(s: seq<Entry>)
    requires |s| > 0
    ensures NonIncreasing(s) ==> NonIncreasing(s[1..])
  {
    if NonIncreasing(s) {
      forall i, j | 0 <= i < j < |s[1..]| ensures s[1..][i].1 >= s[1..][j].1 {
        assert s[1..][i] == s[i + 1] && s[1..][j] == s[j + 1];
      }
    }
  }

  /** The leaderboard of a score table. */
  function Rank(table: seq<Entry>): seq<Entry>
  {
    if |table| == 0 then [] else Insert(table[0], Rank(table[1..]))
  }

  /** Scores never increase along the sequence. */
  predicate NonIncreasing(s: seq<Entry>)
  {
    forall i, j :: 0 <= i < j < |s| ==> s[i].1 >= s[j].1
  }

  /** The entries of `s` that have exactly `points`, in their order in `s`. */
  function WithScore(s: seq<Entry>, points: int): seq<Entry>
  {
    if |s| == 0 then []
    else (if s[0].1 == points then [s[0]] else []) + WithScore(s[1..], points)
  }

  /** `out` is `table` sorted by descending score with ties in table
      order: a rearrangement of the same entries, scores non-increasing,
      and for every score the entries having it appear in table order. */
  ghost predicate StableDescending(out: seq<Entry>, table: seq<Entry>)
  {
    && multiset(out) == multiset(table)
    && NonIncreasing(out)
    && forall points :: WithScore(out, points) == WithScore(table, points)
  }

  lemma {:induction false} WithScoreMember(s: seq<Entry>, points: int, x: Entry)
    ensures x in WithScore(s, points) <==> x in s && x.1 == points
    decreases |s|
  {
    if |s| > 0 {
      WithScoreMember(s[1..], points, x);
      assert s == [s[0]] + s[1..];
    }
  }

  lemma WithScoreCons(x: Entry, s: seq<Entry>, points: int)
    ensures WithScore([x] + s, points) == (if x.1 == points then [x] else []) + WithScore(s, points)
  {
    assert ([x] + s)[1..] == s;
  }

  lemma {:induction false} InsertWithScore(e: Entry, sorted: seq<Entry>, points: int)
    ensures WithScore(Insert(e, sorted), points) == WithScore([e] + sorted, points)
    decreases |sorted|
  {
    if |sorted| > 0 && e.1 < sorted[0].1 {
      var s0, tail := sorted[0], sorted[1..];
      assert sorted == [s0] + tail;
      var inserted := Insert(e, tail);
      calc {
        WithScore(Insert(e, sorted), points);
        { InsertBelow(e, sorted); }
        WithScore([s0] + inserted, points);
        { WithScoreCons(s0, inserted, points); }
        (if s0.1 == points then [s0] else []) + WithScore(inserted, points);
        { InsertWithScore(e, tail, points); }
        (if s0.1 == points then [s0] else []) + WithScore([e] + tail, points);
        { WithScoreCons(s0, [e] + tail, points); }
        WithScore([s0] + ([e] + tail), points);
        { SwapDifferentScores(s0, e, tail, points); }
        WithScore([e] + ([s0] + tail), points);
      }
    }
  }

  lemma InsertBelow(e: Entry, sorted: seq<Entry>)
    requires |sorted| > 0 && e.1 < sorted[0].1
    ensures Insert(e, sorted) == [sorted[0]] + Insert(e, sorted[1..])
  {
  }

  /** Entries with different scores can trade places without changing any
      score group. */
  lemma SwapDifferentScores(x: Entry, y: Entry, rest: seq<Entry>, points: int)
    requires x.1 != y.1
    ensures WithScore([x] + ([y] + rest), points) == WithScore([y] + ([x] + rest), points)
  {
    WithScoreCons(x, [y] + rest, points);
    WithScoreCons(y, rest, points);
    WithScoreCons(y, [x] + rest, points);
    WithScoreCons(x, rest, points);
  }

  /** The leaderboard is the stable descending sort of the table. */
  lemma {:induction false} RankIsStableDescending(table: seq<Entry>)
    ensures StableDescending(Rank(table), table)
    decreases |table|
  {
    if |table| > 0 {
      var tail := table[1..];
      RankIsStableDescending(tail);
      assert table == [table[0]] + tail;
      forall points ensures WithScore(Rank(table), points) == WithScore(table, points) {
        InsertWithScore(table[0], Rank(tail), points);
        WithScoreCons(table[0], Rank(tail), points);
        WithScoreCons(table[0], tail, points);
      }
    }
  }

  lemma {:induction false} SameGroupsSameSequence(a: seq<Entry>, b: seq<Entry>)
    requires NonIncreasing(a) && NonIncreasing(b)
    requires forall points :: WithScore(a, points) == WithScore(b, points)
    ensures a == b
    decreases |a|
  {
    if |a| == 0 {
      NoGroupsNoEntries(b);
    } else if |b| == 0 {
      NoGroupsNoEntries(a);
    } else {
      SameGroupsSameHead(a, b);
      SameGroupsSameTail(a, b);
      SameGroupsSameSequence(a[1..], b[1..]);
      assert a == [a[0]] + a[1..] && b == [b[0]] + b[1..];
    }
  }

  /** Two descending sequences with the same score groups start alike: both
      start with the first entry of the top score group. */
  lemma SameGroupsSameHead(a: seq<Entry>, b: seq<Entry>)
    requires |a| > 0 && |b| > 0 && NonIncreasing(a) && NonIncreasing(b)
    requires forall points :: WithScore(a, points) == WithScore(b, points)
    ensures a[0] == b[0]
  {
    HeadInOther(a, b);
    HeadInOther(b, a);
    GroupHead(a);
    GroupHead(b);
    assert WithScore(a, a[0].1) == WithScore(b, b[0].1);
  }

  /** The head of one sequence scores no more than the head of another
      with the same score groups. */
  lemma HeadInOther(a: seq<Entry>, b: seq<Entry>)
    requires |a| > 0 && |b| > 0 && NonIncreasing(b)
    requires forall points :: WithScore(a, points) == WithScore(b, points)
    ensures a[0].1 <= b[0].1
  {
    WithScoreMember(a, a[0].1, a[0]);
    assert a[0] in WithScore(b, a[0].1);
    WithScoreMember(b, a[0].1, a[0]);
    BelowHead(b, a[0]);
  }

  /** A sequence's head leads the group of its score. */
  lemma GroupHead(s: seq<Entry>)
    requires |s| > 0
    ensures |WithScore(s, s[0].1)| > 0 && WithScore(s, s[0].1)[0] == s[0]
  {
    WithScoreCons(s[0], s[1..], s[0].1);
    assert s == [s[0]] + s[1..];
  }

  lemma BelowHead(s: seq<Entry>, x: Entry)
    requires NonIncreasing(s) && x in s
    ensures x.1 <= s[0].1
  {
    var i :| 0 <= i < |s| && s[i] == x;
    if i > 0 {
      assert s[0].1 >= s[i].1;
    }
  }

  /** Dropping a common head keeps the score groups equal. */
  lemma SameGroupsSameTail(a: seq<Entry>, b: seq<Entry>)
    requires |a| > 0 && |b| > 0 && a[0] == b[0]
    requires forall points :: WithScore(a, points) == WithScore(b, points)
    ensures forall points :: WithScore(a[1..], points) == WithScore(b[1..], points)
  {
    assert a == [a[0]] + a[1..] && b == [b[0]] + b[1..];
    forall points ensures WithScore(a[1..], points) == WithScore(b[1..], points) {
      WithScoreCons(a[0], a[1..], points);
      WithScoreCons(b[0], b[1..], points);
      var prefix := if a[0].1 == points then [a[0]] else [];
      assert WithScore(a, points) == prefix + WithScore(a[1..], points);
      assert WithScore(b, points) == prefix + WithScore(b[1..], points);
      assert WithScore(a[1..], points) == WithScore(a, points)[|prefix|..];
    }
  }

  lemma NoGroupsNoEntries(s: seq<Entry>)
    requires forall points :: WithScore(s, points) == []
    ensures s == []
  {
    if |s| > 0 {
      WithScoreMember(s, s[0].1, s[0]);
      assert false;
    }
  }

  /** The stable descending order of a table is unique, so it is the
      leaderboard: any order that meets `StableDescending` equals `Rank`. */
  lemma StableDescendingIsRank(out: seq<Entry>, table: seq<Entry>)
    requires StableDescending(out, table)
    ensures out == Rank(table)
  {
    RankIsStableDescending(table);
    SameGroupsSameSequence(out, Rank(table));
  }

  /** The leaderboard lists exactly the table's names, each once. */
  lemma RankKeepsNames(table: seq<Entry>)
    requires DistinctNames(table)
    ensures DistinctNames(Rank(table))
    ensures forall n :: n in Names(Rank(table)) <==> n in Names(table)
  {
    RankIsStableDescending(table);
    var r := Rank(table);
    assert multiset(r) == multiset(table);
    forall n ensures n in Names(r) <==> n in Names(table) {
      if n in Names(r) {
        var i :| 0 <= i < |r| && r[i].0 == n;
        assert r[i] in multiset(table);
      }
      if n in Names(table) {
        var i :| 0 <= i < |table| && table[i].0 == n;
        assert table[i] in multiset(r);
      }
    }
    forall i, j | 0 <= i < j < |r| ensures r[i].0 != r[j].0 {
      if r[i].0 == r[j].0 {
        assert r[i] in multiset(table) && r[j] in multiset(table);
        var a :| 0 <= a < |table| && table[a] == r[i];
        var b :| 0 <= b < |table| && table[b] == r[j];
        if a == b {
          // same table entry twice in r: its multiplicity would exceed one
          assert r[i] == r[j];
          MultiplicityAtLeastTwo(r, i, j);
          DistinctMultiplicityOne(table, a);
          assert false;
        }
      }
    }
  }

  lemma MultiplicityAtLeastTwo(s: seq<Entry>, i: int, j: int)
    requires 0 <= i < j < |s| && s[i] == s[j]
    ensures multiset(s)[s[i]] >= 2
  {
    assert s == s[..i] + [s[i]] + s[i+1..j] + [s[j]] + s[j+1..];
  }

  lemma DistinctMultiplicityOne(s: seq<Entry>, a: int)
    requires DistinctNames(s) && 0 <= a < |s|
    ensures multiset(s)[s[a]] == 1
  {
    assert s == s[..a] + [s[a]] + s[a+1..];
    forall k | 0 <= k < a ensures s[..a][k] != s[a] {
      assert s[k].0 != s[a].0;
    }
    var after := s[a+1..];
    forall k | 0 <= k < |after| ensures after[k] != s[a] {
      assert after[k] == s[a + 1 + k];
    }
    assert s[a] !in s[..a] && s[a] !in after;
  }
}
